=== FILE: README.md ===
# desdeo-webapi method sessions, in Dafny

A model of the request handlers at the centre of the DESDEO web API. The API
lets a user, registered or guest, run an interactive multiobjective
optimisation method on one of their problems. The model covers:

- **The method session.** Create a method for a problem, start it, iterate it
  with the client's answers, and reset its interaction type. The `method`
  table keeps one record per owner, whose status goes from NOT STARTED to
  ITERATING (`EaResources`, `MethodResources`, `SessionStore`).
- **The evolutionary preference dispatcher** and the navigation "go back"
  rebuild of a pending request (`PreferenceDispatch`).
- **The solution archive**, which appends per problem (`SolutionArchive`).
- **The NIMBUS initialisation**: its input guard, the objective bounds, the
  maximisation flags and the default preference (`NimbusInitialize`).
- **Two validators**: problem-type admission (`ProblemResources`) and the log
  entry type (`LogModels`).

Every handler is a pure function from the stored state and the request to
the new state and a reply `(code, body)`. The stores are modelled as
follows:

- The `method` table is a sequence of rows in insertion order. `.first()`,
  `.all()` and `filter_by(...).delete()` keep their SQL meaning.
- Problems are a sequence of rows.
- Archives are a map from problem id.

The algorithm library (RVEA, NSGA-III, the reference point method,
NAUTILUS Navigator) is an `Engine`, a record of opaque operations. Each
operation may fail; failure stands for any exception the library raises.
Numbers are exact `real`s where the source uses floats.

Python behaviour that decides an outcome is written out:

- negative sequence indexing;
- `x or y` falling back on an empty list;
- a tuple having no `response` attribute;
- `np.atleast_2d`;
- a DataFrame whose rows do not fit its columns.

JSON replies are structured bodies. A body keeps the fields the handler
sends, not the text of its messages.

Where a handler cannot work as written, the model has two versions:

- an `...AsWritten` member that does what the code does;
- a corrected member, which the rest of the model uses.

Both are listed under Findings.

## Model

| member | source | states |
|---|---|---|
| SessionStore.Lookup | resources/ea_resources.py:231-245 | the record `.first()` returns belongs to the owner |
| SessionStore.LookupIsFirstRecord | resources/ea_resources.py:231-245 | `.first()` is the head of `.all()` and is missing exactly when the owner has no record |
| SessionStore.DeleteOwner | resources/ea_resources.py:180-185 | deleting an owner's records leaves none of theirs, keeps every other owner's records in order, and adds no row |
| SessionStore.Reset | resources/ea_resources.py:180-211 | delete then insert: afterwards the owner has exactly the new record, `.first()` finds it, and no other owner's records change |
| SessionStore.Replace | resources/ea_resources.py:261-265 | assigning the fields of the owner's first record and committing replaces that record only; the table length and every other owner's records are unchanged |
| SessionStore.ResetKeepsValid | resources/ea_resources.py:180-211 | delete-then-insert of a consistent record keeps at most one record per owner, each NOT STARTED exactly when it has no pending request |
| SessionStore.ReplaceKeepsValid | resources/ea_resources.py:261-265 | replacing a record with a consistent one keeps the table invariant |
| SessionStore.ReplaceThenLookup | resources/ea_resources.py:261-265 | after a replace, the owner's next lookup sees the new record and every other owner's lookup is unchanged |
| Problems.FindProblem | resources/ea_resources.py:116-141 | the problem lookup fails exactly when no row has that owner and id; a row it finds has that owner and id |
| Problems.OwnedIds | resources/solution_archive_resources.py:39-42 | an id is listed exactly when some problem of the caller has it |
| Problems.OwnedIdsAgreeWithFind | resources/solution_archive_resources.py:39-47 | membership in the caller's id list agrees with the per-id lookup the other handlers use |
| EaResources.KindOf | resources/ea_resources.py:164-171 | `rvea`/`irvea` build RVEA and the others NSGA-III; the method is interactive exactly for `irvea` and `insgaiii` |
| EaResources.Describe | resources/ea_resources.py:85-107 | 200 exactly when the caller has a method record, 404 otherwise |
| EaResources.Create | resources/ea_resources.py:111-216 | unknown problem: 404; unknown method name: 404, listing every available name; non-Analytical problem: 406; all three leave the table unchanged. 201 exactly when all checks pass and the class builds; then the caller's one record is NOT STARTED with no pending request, and other owners are untouched |
| EaResources.CreateAsWritten | resources/ea_resources.py:31-48 | every request is answered 500 and the table is unchanged |
| EaResources.EaStart | resources/ea_resources.py:517-541 | starting succeeds exactly when the reference-point interaction is selected, the method starts, and it returns at least one request; then the first request is kept and the reply reports response 0, preference type -1 and the population |
| EaResources.Start | resources/ea_resources.py:222-267 | no record: 404; already started: 400, unchanged. 200 exactly when a NOT STARTED RVEA or NSGA-III record starts; the record then becomes ITERATING with the first request pending and the new state, the reply is the started population, and no other owner is touched |
| EaResources.PendingToAnswer | resources/ea_resources.py:336-356 | a non-navigation method answers the stored request. A navigation method answers it too when `go_to_previous` is null or false, and answers the request rebuilt from the payload when it is true. Deciding fails exactly when the flag is missing, not a boolean, or true with a navigation field missing; the stored request is then echoed |
| EaResources.Advance | resources/ea_resources.py:336-368 | the try block commits exactly when the one pending request, answered with the whole payload, iterates and yields a request (a non-empty tuple keeps its first); a tuple of pending requests aborts; any failure echoes what was being answered |
| EaResources.Echo | resources/ea_resources.py:369-384 | the abort reply echoes the content of each pending request, in order |
| EaResources.IterateReply | resources/ea_resources.py:388-430 | RVEA replies with response 0, preference type -1 and the population with the problem's ideal and nadir; other classes reply with the next request's content |
| EaResources.Iterate | resources/ea_resources.py:271-430 | no record: 404; not ITERATING or no pending request: 400; these guards come before any change. 200 exactly when the try block succeeds, replacing state and pending request together, keeping ITERATING, and replying as `IterateReply` does for the method's class. Any failure leaves the table as it was and echoes the pending request(s) |
| EaResources.IterateAsWritten | resources/ea_resources.py:336-384 | every request that passes the guards aborts with 400, echoing the pending request, and the table never changes |
| EaResources.InteractionTypesOf | resources/ea_resources.py:436-462 | 404 exactly when the caller has no method; 200 with the stored method's allowable interaction types exactly when its class has that attribute; 500 for a stored class without it, such as a reference point method |
| EaResources.SetInteractionType | resources/ea_resources.py:466-514 | no record: 404; not ITERATING: 400, unchanged. 200 exactly when an ITERATING method switches type and yields its requests; the switched state and the tuple of new requests are then stored together, and ideal, nadir and solutions are reported |
| EaLifecycle.CreateKeepsValid | resources/ea_resources.py:180-211 | create keeps one record per owner and status/pending-request consistency |
| EaLifecycle.StartKeepsValid | resources/ea_resources.py:261-265 | start keeps the table invariant |
| EaLifecycle.IterateKeepsValid | resources/ea_resources.py:364-367 | iterate keeps the table invariant |
| EaLifecycle.SetInteractionTypeKeepsValid | resources/ea_resources.py:510-512 | resetting the interaction type keeps the table invariant |
| EaLifecycle.StartOnlyOnce | resources/ea_resources.py:247-249 | after a successful start, starting again is refused with 400 and changes nothing |
| EaLifecycle.CreatedCanStart | resources/ea_resources.py:243-265 | a freshly created RVEA or NSGA-III method is started with 200 whenever the library starts it |
| EaLifecycle.IterateBeforeStartRefused | resources/ea_resources.py:299-301 | a freshly created method cannot be iterated: 400 with no change |
| EaLifecycle.CreateResetsSession | resources/ea_resources.py:180-211 | after a create, the method is found, NOT STARTED, has no pending request and carries the new name, whatever existed before |
| EaLifecycle.IterateAfterInteractionResetAborts | resources/ea_resources.py:336-384 | once the interaction type is reset, a non-navigation method's next iteration aborts with 400, echoes the tuple element-wise, and changes nothing |
| EaLifecycle.IterateAgainAnswersProducedRequest | resources/ea_resources.py:299-384 | after a committed iteration the next one passes every guard and either commits or aborts with 400 and no change; for a non-navigation method the abort echoes exactly the request the previous iteration produced |
| EaLifecycle.CreateAsWrittenRefusesValidRequest | resources/ea_resources.py:112 | an owned Analytical problem with `irvea` is created by the intended handler but refused with 500 as written |
| EaLifecycle.IterateAsWrittenAbortsValidRequest | resources/ea_resources.py:337 | a started RVEA session is advanced by the intended handler but aborts unchanged as written |
| PreferenceDispatch.PyIndex | resources/ea_resources.py:564 | Python indexing succeeds exactly for -n <= i < n and reads position i or n+i |
| PreferenceDispatch.AtLeast2d | resources/ea_resources.py:573 | a scalar x becomes `[[x]]`, a vector one row, an empty matrix `[[]]`, a non-empty rectangular matrix stays; anything else is refused; every result is rectangular with at least one row |
| PreferenceDispatch.AtLeast2dIdempotent | resources/ea_resources.py:573 | lifting an already lifted matrix changes nothing |
| PreferenceDispatch.Dispatch | resources/ea_resources.py:544-583 | type 5 passes the three classification fields through exactly when present; any other index past the end raises; 0 yields no preference once Python's `[-1]` read succeeds; 1-2 attach the raw data exactly when present; 4 attaches the data as a matrix exactly when it lifts; 3 attaches a table over the request's columns exactly when the data lifts, the request has a `dimensions_data` table and the row width equals the column count; other indices select `pending[preference_type - 1]` under Python indexing, exactly when that index is in range |
| PreferenceDispatch.ClassificationIgnoresRequests | resources/ea_resources.py:552-557 | the classification result does not depend on the pending requests |
| PreferenceDispatch.DispatchReadsOnlySelected | resources/ea_resources.py:559-583 | for types 1-4, two request lists that agree on the selected request dispatch alike |
| PreferenceDispatch.FirstMissing | resources/ea_resources.py:343-356 | the key reported missing is the first of the keys that is absent; none is reported exactly when all are present |
| PreferenceDispatch.GoBack | resources/ea_resources.py:343-356 | the rebuilt request exists exactly when all twelve navigation fields are present; its content is exactly those fields with the payload's values, and it carries no response |
| PreferenceDispatch.GoBackReplay | resources/ea_resources.py:343-356 | resending a rebuilt request's content rebuilds the same request |
| PreferenceDispatch.GoBackReadsOnlyNavigationFields | resources/ea_resources.py:343-356 | payloads that agree on the twelve fields rebuild the same request, or fail on the same key |
| PreferenceDispatch.FirstMissingReadsOnlyKeys | resources/ea_resources.py:343-356 | the first missing key depends only on which of the keys are present |
| MethodResources.Describe | resources/method_resources.py:31-41 | 200 exactly when the user has a method record; otherwise 404 with the fixed message |
| MethodResources.Create | resources/method_resources.py:44-100 | a problem the user does not own gives 404 before the name is checked; an unknown name gives 404 listing both names; both leave the table unchanged. On 201 the user has exactly one record (the reference point method with the problem's `minimize`, NOT STARTED, nothing pending) and other users are untouched |
| MethodResources.CreateKeepsValid | resources/method_resources.py:85-95 | create keeps one record per user and status/pending-request consistency |
| MethodResources.BothNamesBuildSameMethod | resources/method_resources.py:77-80 | the two accepted names build the same method; the resulting tables differ only in the stored name |
| MethodResources.CreateTwiceKeepsLatest | tests/test_method_model.py:130-154 | two successful creates leave exactly one record, carrying the second name, and no other user changes |
| SolutionArchive.Post | resources/solution_archive_resources.py:33-83 | an unowned id gives 404 and no change. Otherwise 201 exactly when the id had no archive (the archive is then the posted lists), and 202 exactly when it had one (the old lists are a prefix of the new, followed by the posted ones). The key set grows by at most this id; other archives are unchanged |
| SolutionArchive.PostText | resources/solution_archive_resources.py:33-83 | an unowned id gives 404 before anything is decoded; an owned id with undecodable text gives 500 and no change; 201 or 202 exactly when the id is owned and both strings decode, and then the outcome is that of posting the decoded lists |
| SolutionArchive.PostTwiceIsPostConcatenated | resources/solution_archive_resources.py:52-78 | posting two batches archives the same as posting their concatenation once |
| NimbusInitialize.GuardAsWrittenRejectsAll | resources/nimbus.py:127-129 | the written guard is true for every input |
| NimbusInitialize.GuardAdmitsListOrNone | resources/nimbus.py:127-129 | the intended guard admits exactly a list or no value |
| NimbusInitialize.Bounds | resources/nimbus.py:165-170 | the bounds exist exactly when ideal, nadir and multiplier have one length; each lower bound is the smaller and each upper bound the larger of the two scaled entries |
| NimbusInitialize.BoundsOrdered | resources/nimbus.py:165-170 | every lower bound is at most its upper bound |
| NimbusInitialize.BoundsSymmetric | resources/nimbus.py:167-170 | swapping ideal and nadir leaves the bounds unchanged |
| NimbusInitialize.IsMaximized | resources/nimbus.py:177-179 | objective i is flagged maximised exactly when its multiplier is -1 |
| NimbusInitialize.Midpoint | resources/nimbus.py:183 | the midpoint lies between ordered bounds and is equidistant from both |
| NimbusInitialize.PreviousPreference | resources/nimbus.py:182-183 | a non-empty initial solution is used as given; a missing or empty one falls back to the midpoint |
| NimbusInitialize.Initialize | resources/nimbus.py:122-190 | neither list nor missing: 400; unowned problem: 404. 200 exactly when the guard passes and the owned problem's vectors agree in length; then the flags and ordered bounds are as above, and the previous preference is the non-empty initial solution, otherwise the midpoint of the bounds |
| NimbusInitialize.InitializeAsWritten | resources/nimbus.py:128-129 | every request is answered 400 with the guard's message |
| NimbusInitialize.InitializeAsWrittenRefusesOwnedProblem | resources/nimbus.py:128-129 | a request with no initial solution for an owned problem is refused as written and answered 200 by the intended guard |
| ProblemResources.Describe | resources/problem_resources.py:27-28 | GET always answers 200 with the fixed message |
| ProblemResources.Create | resources/problem_resources.py:31-37 | 201 exactly for the type `Analytical`, echoing type, name and caller; any other type gives 406 naming the available types |
| ProblemResources.AdmissionDependsOnlyOnType | resources/problem_resources.py:8-33 | the code depends on the problem type alone, not on name or caller |
| LogModels.ValidateType | models/log_models.py:4-21 | accepts exactly the four listed entry types and returns them unchanged; any other string raises, naming the type and the acceptable list |
| LogModels.ValidateTypeIdempotent | models/log_models.py:15-21 | validating an accepted type again gives the same result |
| LogModels.NewLogEntryAsWritten | models/log_models.py:7-21 | without the `validates` decorator, an entry is built with whatever type it is given |
| LogModels.NewLogEntry | models/log_models.py:7-21 | with the check on assignment, an entry is built exactly for a listed type and keeps its fields; otherwise the validator's error |
| LogModels.EntryWithoutDataHasNone | tests/test_log.py:63-69 | an entry created without data stores no data |
| LogModels.UnlistedTypeStoredAsWritten | models/log_models.py:15 | an unlisted type is stored as written and refused by the checked constructor |

## Left out

- Authentication, JWT claims and role lookup are not modelled. The owner is a given `User` or `Guest` key. The "user not found" 404 branches that precede each lookup are omitted.
- The guest branch of `EACreate.post` reads `GuestProblem` by `user_id`, not `guest_id` (resources/ea_resources.py:131). The model looks problems up by owner uniformly.
- SolutionArchive.PostText: a posted string that is valid JSON but not a list of vectors is not modelled. On create the source stores such a value as it is; on append `+=` either raises or extends the list with its keys or characters. Undecodable text is modelled, as a 500 with nothing committed.
- Pickling (dill), SQLAlchemy sessions and JSON encoding are not modelled. This includes `NumpyEncoder` with NaN-to-null and the deep copies before each commit. A commit is a pure table update. Serialising a reply can still fail after its commit. `setInteractionType.post` commits (resources/ea_resources.py:510-512) and then returns `ideal` and `nadir` as raw arrays, beside `solutions` as a JSON string (lines 505-508). The model's 200 reply does not cover that late failure.
- `NumpyEncoder` and `numpify_dict_items` are imported from utilities/expression_parser.py (resources/ea_resources.py:18, resources/nimbus.py:26), but neither is defined there. As written, both handler modules therefore fail at import and no handler runs at all. Every member here, the `...AsWritten` ones included, assumes that import succeeds. Payloads are taken to arrive with numeric lists already as arrays (`Values.Value`).
- The algorithm internals (RVEA, NSGA-III, the reference point method, NAUTILUS Navigator) are modelled only as the opaque, possibly failing operations of `Engines.Engine`.
- Requests are maps from field names to values. The content of a rebuilt navigation request is stored by field name. The positional constructor call is not modelled.
- EaResources.PendingToAnswer: a `go_to_previous` value other than a JSON boolean or null is treated as raising. Python truthiness of numbers, strings and arrays is not modelled.
- EaResources.Iterate: the `preference_type` read at resources/ea_resources.py:357 is ignored. The parser never declares that argument (lines 51-61), and the value is never used afterwards. As written the read raises KeyError inside the try block, which is a second reason the handler aborts (see Findings).
- EaResources.IterateReply: the population reply is given for RVEA only. The second class in that test, `IOPIS_NSGAIII` (line 390), is never imported. The test is never reached as written, so NSGA-III methods get the `{"response": content}` reply.
- EaResources.Start: a stored class other than RVEA or NSGA-III gets a 500. The reply variables are never bound for such a class (resources/ea_resources.py:253-267).
- PreferenceDispatch.AtLeast2d: non-numeric preference data is refused as a whole. The model does not follow numpy's object arrays.
- NimbusInitialize.Bounds: numpy broadcasting of length-1 vectors is not modelled. Any length disagreement is an error.
- NimbusInitialize.Initialize: the `NIMBUS` constructor and `start()` (resources/nimbus.py:162-163) are taken to succeed. The objective names and the current, saved and all-solutions fields of the reply are not modelled. `NIMBUSResponse` subclasses the function `dataclass` instead of being decorated by it (resources/nimbus.py:106), so nimbus.py raises TypeError when it is imported. That is a second import-time failure besides the missing encoder. Its field is named `previousp_preference` (line 113), while the handler passes `previousPreference` (line 182). The reply is modelled as the evident intent.
- NIMBUS `Iterate`, `Intermediate` and `Save` (resources/nimbus.py:193-291) are not modelled. They use unbound names or are empty.
- MethodResources.Create: the `method` model class declares no `status` or `last_request` column (models/method_models.py:9-14). The record is given the values the tests observe after a create: NOT STARTED and no pending request (tests/test_method_model.py:186-190).
- Column lengths (`String(100)`, `String(1000)`) and the log entry's id and timestamp are not modelled. The log endpoint that stores entries is not modelled.
- The model follows the database schema the handlers and tests assume, not models/problem_models.py and models/method_models.py as given. Those files lack the following, each used elsewhere:
  - the problem `minimize` column, read at resources/ea_resources.py:136;
  - the `GuestProblem` class, imported at resources/ea_resources.py:10 and queried at line 131;
  - the `SolutionArchive` class, imported at resources/solution_archive_resources.py:7, queried at line 52 and built at line 61;
  - the method's `guest_id` column, used at resources/ea_resources.py:98, 184 and 205;
  - the method's `status` and `last_request` columns, written at resources/ea_resources.py:195-196, 207-208 and 262-263 and read at lines 247, 299 and 303.
- Concurrency is not modelled. In particular, the delete-then-insert in the create handlers spans two commits. Each request is one sequential step.
- Questionnaires, user management and the data-seeding scripts are outside the core and not modelled.

## Findings

| source | as written | input that shows it | evidently intended | confidence | as-written member | corrected member |
|---|---|---|---|---|---|---|
| resources/nimbus.py:128 | `initial_solution is not None or not isinstance(initial_solution, list)` is true for every value: None fails the second test and a list fails the first | `initialSolution` missing, for a problem the caller owns | reject only what is neither None nor a list (`and`), as the message says | high, not executed | NimbusInitialize.InitializeAsWritten | NimbusInitialize.Initialize |
| resources/ea_resources.py:112 | `ea_create_parser(available_methods)` calls a function of no parameters (line 31) with one argument, so every create raises TypeError and answers 500 | an owned Analytical problem with method `irvea` | `ea_create_parser()` | high, not executed | EaResources.CreateAsWritten | EaResources.Create |
| resources/ea_resources.py:337 | `NautilusNavigator` is never imported, so every iteration that passes the guards raises NameError inside the try block and aborts with 400. The `preference_type` read at line 357 would raise KeyError next. `NautilusNavigatorRequest` (line 343) is not imported either; the corrected go-back path assumes both navigation names resolve | a started RVEA session posting any response | compare against the navigation class only when it applies, then iterate | high, not executed | EaResources.IterateAsWritten | EaResources.Iterate |
| models/log_models.py:15 | `validate_type` has no `@validates("entry_type")` decorator, although `validates` is imported (line 2), so it never runs and any entry type is stored | an entry with type `Debug` | check the type on assignment | medium, not executed | LogModels.NewLogEntryAsWritten | LogModels.NewLogEntry |

=== FILE: common.dfy ===
/** Vocabulary shared by every handler of the web API: optional values,
    results with an error side, the resolved caller, and HTTP replies. */
module Common {

  /** A value that may be missing (Python's `None`). */
  datatype Option<+T> = None | Some(value: T)

  /** The outcome of a step that may raise: a value, or the error it raised. */
  datatype Result<+T, +E> = Ok(value: T) | Err(error: E)

  /** The caller as the token resolves it. The role decides which column of
      a stored row identifies the caller: `user_id` for registered users,
      `guest_id` for guests. Resolving a username to a row id is a bijection
      the model takes as given. */
  datatype Owner = User(username: string) | Guest(username: string)

  /** An HTTP reply: a status code and a body. */
  datatype Reply<+B> = Reply(code: int, body: B)
}

=== FILE: ea_lifecycle.dfy ===
/** Properties of the method-session controller that relate several
    requests: the state machine NOT STARTED -> ITERATING, the invariant every
    handler keeps, and the behaviour of the handlers as written. */
module EaLifecycle {
  import opened Common
  import opened Values
  import opened SessionStore
  import opened Problems
  import opened Engines
  import opened Replies
  import opened EaResources

  /** Every handler keeps at most one record per owner, each waiting on a
      request exactly when it has been started. */
  lemma CreateKeepsValid(e: Engine, t: Table, problems: seq<Problem>, o: Owner, problemId: int, name: string)
    requires Valid(t)
    ensures Valid(Create(e, t, problems, o, problemId, name).table)
  {
    var out := Create(e, t, problems, o, problemId, name);
    if out.reply.code == 201 {
      var p := FindProblem(problems, o, problemId).value;
      ResetKeepsValid(t, o, MethodRecord(name, e.construct(KindOf(name), p).value, p.minimize, NotStarted, None));
    }
  }

  lemma StartKeepsValid(e: Engine, t: Table, o: Owner)
    requires Valid(t)
    ensures Valid(Start(e, t, o).table)
  {
    var out := Start(e, t, o);
    if out.reply.code == 200 {
      var rec := Lookup(t, o).value;
      var started := EaStart(e, rec.algo).value;
      ReplaceKeepsValid(t, o, rec.(algo := started.0, status := Iterating, lastRequest := Some(One(started.1))));
    }
  }

  lemma IterateKeepsValid(e: Engine, t: Table, o: Owner, payload: Dict)
    requires Valid(t)
    ensures Valid(Iterate(e, t, o, payload).table)
  {
    var out := Iterate(e, t, o, payload);
    if out.reply.code == 200 {
      var rec := Lookup(t, o).value;
      var stepped := Advance(e, rec, payload).value;
      ReplaceKeepsValid(t, o, rec.(algo := stepped.0, lastRequest := Some(One(stepped.1))));
    }
  }

  lemma SetInteractionTypeKeepsValid(e: Engine, t: Table, o: Owner, interactionType: string)
    requires Valid(t)
    ensures Valid(SetInteractionType(e, t, o, interactionType).table)
  {
    var out := SetInteractionType(e, t, o, interactionType);
    if out.reply.code == 200 {
      var rec := Lookup(t, o).value;
      var a := e.setInteractionType(rec.algo, interactionType).value;
      ReplaceKeepsValid(t, o, rec.(algo := a, lastRequest := Some(Many(e.requests(a).value))));
    }
  }

  /** A second start without an intervening create is refused and changes nothing. */
  lemma StartOnlyOnce(e: Engine, t: Table, o: Owner)
    requires Start(e, t, o).reply.code == 200
    ensures var t' := Start(e, t, o).table;
      Start(e, t', o) == Outcome(t', Reply(400, Message("Method has already been started.")))
  {
  }

  /** A freshly created evolutionary method can be started whenever the
      library starts it: create leaves nothing in the way. */
  lemma CreatedCanStart(e: Engine, t: Table, problems: seq<Problem>, o: Owner, problemId: int, name: string)
    requires KeepsClass(e)
    requires Create(e, t, problems, o, problemId, name).reply.code == 201
    requires EaStart(e, Lookup(Create(e, t, problems, o, problemId, name).table, o).value.algo).Some?
    ensures Start(e, Create(e, t, problems, o, problemId, name).table, o).reply.code == 200
  {
    var p := FindProblem(problems, o, problemId).value;
    var algo := e.construct(KindOf(name), p).value;
    assert algo.family == KindOf(name).family;
  }

  /** A freshly created method cannot be iterated before it is started. */
  lemma IterateBeforeStartRefused(e: Engine, t: Table, problems: seq<Problem>, o: Owner, problemId: int, name: string, payload: Dict)
    requires Create(e, t, problems, o, problemId, name).reply.code == 201
    ensures var t' := Create(e, t, problems, o, problemId, name).table;
      Iterate(e, t', o, payload) == Outcome(t', Reply(400, Message("Method has not been started or is finished.")))
  {
  }

  /** Creating replaces whatever the owner had, started or not: the next
      look sees a found, not-yet-started method with no pending request. */
  lemma CreateResetsSession(e: Engine, t: Table, problems: seq<Problem>, o: Owner, problemId: int, name: string)
    requires Create(e, t, problems, o, problemId, name).reply.code == 201
    ensures var t' := Create(e, t, problems, o, problemId, name).table;
      && Describe(t', o).code == 200
      && Lookup(t', o).Some?
      && Lookup(t', o).value.status == NotStarted
      && Lookup(t', o).value.lastRequest.None?
      && Lookup(t', o).value.name == name
  {
    var t' := Create(e, t, problems, o, problemId, name).table;
    LookupIsFirstRecord(t', o);
  }

  /** After the interaction type is reset the pending request is a tuple,
      which cannot take a response: the next iteration of any method that
      is not a navigation method aborts, echoing every element, and changes
      nothing. */
  lemma IterateAfterInteractionResetAborts(e: Engine, t: Table, o: Owner, interactionType: string, payload: Dict)
    requires KeepsClass(e)
    requires SetInteractionType(e, t, o, interactionType).reply.code == 200
    requires Lookup(t, o).value.algo.family != Navigator
    ensures var t' := SetInteractionType(e, t, o, interactionType).table;
      && Iterate(e, t', o, payload).table == t'
      && Iterate(e, t', o, payload).reply.code == 400
      && Iterate(e, t', o, payload).reply.body.RetryMany?
  {
    var rec := Lookup(t, o).value;
    var a := e.setInteractionType(rec.algo, interactionType).value;
    assert a.family == rec.algo.family;
  }

  /** Iterations chain: after one commits, the next iteration passes every
      guard and either commits too or aborts leaving the table as it was;
      outside navigation, an abort echoes exactly the request the previous
      iteration produced. */
  lemma IterateAgainAnswersProducedRequest(e: Engine, t: Table, o: Owner, payload: Dict, payload': Dict)
    requires KeepsClass(e)
    requires Iterate(e, t, o, payload).reply.code == 200
    ensures var t' := Iterate(e, t, o, payload).table;
      var again := Iterate(e, t', o, payload');
      again.reply.code == 200 || (again.reply.code == 400 && again.table == t')
    ensures var t' := Iterate(e, t, o, payload).table;
      var produced := Advance(e, Lookup(t, o).value, payload).value.1;
      var again := Iterate(e, t', o, payload');
      Lookup(t, o).value.algo.family != Navigator ==>
        again.reply.code == 200 || again == Outcome(t', Reply(400, RetryOne(produced.content)))
  {
  }

  /** A tiny deterministic engine under which every operation succeeds. */
  function WitnessEngine(): (e: Engine)
  {
    var pop := Population([], [], [], []);
    var req := Request(map[], None);
    Engine(
      (k: Kind, p: Problem) => Some(Algo(k.family, k.interact, pop, 0)),
      (a: Algo, s: string) => Some(a),
      (a: Algo) => Some((a, [req])),
      (a: Algo, r: Request) => Some((a.(internal := a.internal + 1), Single(req))),
      (a: Algo) => Some([req]),
      (a: Algo) => Some([]))
  }

  /** The create handler as written never creates anything, although the
      intended one does for this owner and problem. */
  lemma CreateAsWrittenRefusesValidRequest()
    ensures var e := WitnessEngine();
      var p := Problem(1, User("u"), "DTLZ2", "Analytical", "[1, 1, 1, 1]", [0.0], [1.0], [1.0]);
      && Create(e, [], [p], User("u"), 1, "irvea").reply.code == 201
      && CreateAsWritten(e, [], [p], User("u"), 1, "irvea").reply.code == 500
  {
    var e := WitnessEngine();
    var p := Problem(1, User("u"), "DTLZ2", "Analytical", "[1, 1, 1, 1]", [0.0], [1.0], [1.0]);
    assert FindProblem([p], User("u"), 1) == Some(p);
    assert "irvea" in AvailableMethods;
  }

  /** The iterate handler as written aborts where the intended one commits. */
  lemma IterateAsWrittenAbortsValidRequest()
    ensures var e := WitnessEngine();
      var rec := MethodRecord("irvea", Algo(Rvea, true, Population([], [], [], []), 0), "[1]",
                              Iterating, Some(One(Request(map[], None))));
      var t := [Row(User("u"), rec)];
      && Iterate(e, t, User("u"), map[]).reply.code == 200
      && Iterate(e, t, User("u"), map[]).table != t
      && IterateAsWritten(e, t, User("u"), map[]).reply.code == 400
      && IterateAsWritten(e, t, User("u"), map[]).table == t
  {
    var e := WitnessEngine();
    var rec := MethodRecord("irvea", Algo(Rvea, true, Population([], [], [], []), 0), "[1]",
                            Iterating, Some(One(Request(map[], None))));
    var t := [Row(User("u"), rec)];
    assert Lookup(t, User("u")) == Some(rec);
    var out := Iterate(e, t, User("u"), map[]);
    assert Lookup(out.table, User("u")).value.algo.internal == 1;
  }
}

=== FILE: ea_resources.dfy ===
/** The interactive method-session controller for evolutionary methods:
    create a method for a problem, start it, iterate it with the client's
    answers, and reset its interaction type. Every handler is one sequential
    step from a table to a table and a reply. */
module EaResources {
  import opened Common
  import opened Values
  import opened SessionStore
  import opened Problems
  import opened Engines
  import opened Replies
  import PreferenceDispatch

  /** The keys of `available_methods`, in declaration order. */
  const AvailableMethods: seq<string> := ["rvea", "irvea", "nsgaiii", "insgaiii"]

  /** The only problem type the create handler accepts. */
  const Analytical: string := "Analytical"

  const NoMethodFound: string := "No defined method found for the current user."

  /** The class and the interactivity flag each method name selects. */
  function KindOf(name: string): (k: Kind)
    requires name in AvailableMethods
    ensures k.family == Rvea || k.family == Nsgaiii
    ensures k.family == Rvea <==> name == "rvea" || name == "irvea"
    ensures k.interact <==> name == "irvea" || name == "insgaiii"
  {
    if name == "rvea" then Kind(Rvea, false)
    else if name == "irvea" then Kind(Rvea, true)
    else if name == "nsgaiii" then Kind(Nsgaiii, false)
    else Kind(Nsgaiii, true)
  }

  /** `EACreate.get`: whether the caller has a method. */
  function Describe(t: Table, o: Owner): (r: Reply<Body>)
    ensures r.code == 200 <==> RecordsOf(t, o) != []
    ensures r.code != 200 ==> r.code == 404
  {
    LookupIsFirstRecord(t, o);
    if Lookup(t, o).None? then Reply(404, Message("No method found defined for the current user."))
    else Reply(200, Message("Method found!"))
  }

  /** `EACreate.post`, with its request parser called as intended (see
      `CreateAsWritten`). Problem lookup, method name and problem type are
      all checked before the table is touched; on success the caller's
      earlier records are deleted and one fresh record is inserted. */
  function Create(e: Engine, t: Table, problems: seq<Problem>, o: Owner, problemId: int, name: string): (out: Outcome)
    ensures FindProblem(problems, o, problemId).None? ==>
      out == Outcome(t, Reply(404, ProblemNotFound(problemId)))
    ensures FindProblem(problems, o, problemId).Some? && name !in AvailableMethods ==>
      out == Outcome(t, Reply(404, UnknownMethod(name, AvailableMethods)))
    ensures FindProblem(problems, o, problemId).Some? && name in AvailableMethods
            && FindProblem(problems, o, problemId).value.problemType != Analytical ==>
      out.table == t && out.reply.code == 406
    ensures out.reply.code != 201 ==> out.table == t
    ensures out.reply.code == 201 <==>
      && FindProblem(problems, o, problemId).Some?
      && name in AvailableMethods
      && FindProblem(problems, o, problemId).value.problemType == Analytical
      && e.construct(KindOf(name), FindProblem(problems, o, problemId).value).Some?
    ensures out.reply.code == 201 ==>
      var p := FindProblem(problems, o, problemId).value;
      && out.reply.body == Created(name, o)
      && RecordsOf(out.table, o)
         == [MethodRecord(name, e.construct(KindOf(name), p).value, p.minimize, NotStarted, None)]
      && forall o' :: o' != o ==> RecordsOf(out.table, o') == RecordsOf(t, o')
  {
    match FindProblem(problems, o, problemId)
    case None => Outcome(t, Reply(404, ProblemNotFound(problemId)))
    case Some(p) =>
      if name !in AvailableMethods then Outcome(t, Reply(404, UnknownMethod(name, AvailableMethods)))
      else if p.problemType != Analytical then
        Outcome(t, Reply(406, Message("Currently only analytical problems are supported.")))
      else
        match e.construct(KindOf(name), p)
        case None => Outcome(t, Reply(500, Message("For some reason could not initialize method " + name)))
        case Some(algo) =>
          Outcome(Reset(t, o, MethodRecord(name, algo, p.minimize, NotStarted, None)), Reply(201, Created(name, o)))
  }

  /** `EACreate.post` as written: `ea_create_parser` takes no argument but
      is called with one, so the handler raises TypeError before reading
      anything. */
  function CreateAsWritten(e: Engine, t: Table, problems: seq<Problem>, o: Owner, problemId: int, name: string): (out: Outcome)
    ensures out.table == t
    ensures out.reply.code == 500
  {
    Outcome(t, Reply(500, ServerError))
  }

  /** `EAControlGet`: select the reference-point interaction, start the
      method and keep the first request it returns. The reply always reads
      `response = 0` and `preference_type = -1`, beside the population. */
  function EaStart(e: Engine, algo: Algo): (r: Option<(Algo, Request, Body)>)
    ensures r.Some? <==>
      && e.setInteractionType(algo, "Reference point").Some?
      && e.start(e.setInteractionType(algo, "Reference point").value).Some?
      && |e.start(e.setInteractionType(algo, "Reference point").value).value.1| > 0
    ensures r.Some? ==>
      && e.setInteractionType(algo, "Reference point").Some?
      && var selected := e.setInteractionType(algo, "Reference point").value;
      && e.start(selected).Some?
      && |e.start(selected).value.1| > 0
      && r.value.0 == e.start(selected).value.0
      && r.value.1 == e.start(selected).value.1[0]
      && r.value.2.StartFront?
      && r.value.2.response == 0
      && r.value.2.preferenceType == -1
      && r.value.2.individuals == r.value.0.population.individuals
      && r.value.2.objectives == r.value.0.population.objectives
  {
    match e.setInteractionType(algo, "Reference point")
    case None => None
    case Some(selected) =>
      match e.start(selected)
      case None => None
      case Some(started) =>
        if |started.1| == 0 then None
        else
          var a := started.0;
          Some((a, started.1[0], StartFront(0, -1, a.population.individuals, a.population.objectives)))
  }

  /** `EAControl.get`: start the caller's method. Only a method that has not
      been started can be started; on success its status becomes ITERATING
      and the first pending request is stored together with the new state. */
  function Start(e: Engine, t: Table, o: Owner): (out: Outcome)
    ensures Lookup(t, o).None? ==> out == Outcome(t, Reply(404, Message(NoMethodFound)))
    ensures Lookup(t, o).Some? && Lookup(t, o).value.status != NotStarted ==>
      out == Outcome(t, Reply(400, Message("Method has already been started.")))
    ensures out.reply.code != 200 ==> out.table == t
    ensures out.reply.code == 200 <==>
      && Lookup(t, o).Some?
      && Lookup(t, o).value.status == NotStarted
      && (Lookup(t, o).value.algo.family == Rvea || Lookup(t, o).value.algo.family == Nsgaiii)
      && EaStart(e, Lookup(t, o).value.algo).Some?
    ensures out.reply.code == 200 ==>
      && Lookup(t, o).Some?
      && var rec := Lookup(t, o).value;
      && rec.status == NotStarted
      && EaStart(e, rec.algo).Some?
      && Lookup(out.table, o) == Some(MethodRecord(rec.name, EaStart(e, rec.algo).value.0, rec.minimize,
                                                   Iterating, Some(One(EaStart(e, rec.algo).value.1))))
      && out.reply.body == EaStart(e, rec.algo).value.2
      && out.reply.body.StartFront?
      && out.reply.body.response == 0
      && out.reply.body.preferenceType == -1
    ensures forall o' :: o' != o ==> Lookup(out.table, o') == Lookup(t, o')
  {
    match Lookup(t, o)
    case None => Outcome(t, Reply(404, Message(NoMethodFound)))
    case Some(rec) =>
      if rec.status != NotStarted then Outcome(t, Reply(400, Message("Method has already been started.")))
      else if rec.algo.family != Rvea && rec.algo.family != Nsgaiii then
        // the reply variables are never bound for other classes: NameError
        Outcome(t, Reply(500, ServerError))
      else
        match EaStart(e, rec.algo)
        case None => Outcome(t, Reply(500, ServerError))
        case Some(started) =>
          var rec' := rec.(algo := started.0, status := Iterating, lastRequest := Some(One(started.1)));
          ReplaceThenLookup(t, o, rec');
          Outcome(Replace(t, o, rec'), Reply(200, started.2))
  }

  /** The go-back decision at the head of the try block: the pending
      request(s) to answer (Ok), or, when deciding raised, the stored pending
      request(s) to echo (Err). Only navigation methods look at the payload. */
  function PendingToAnswer(rec: MethodRecord, payload: Dict): (r: Result<Pending, Pending>)
    requires rec.lastRequest.Some?
    ensures rec.algo.family != Navigator ==> r == Ok(rec.lastRequest.value)
    ensures r.Err? ==> r.error == rec.lastRequest.value
    ensures r.Err? <==>
      && rec.algo.family == Navigator
      && ("go_to_previous" !in payload
          || (payload["go_to_previous"] != Null && payload["go_to_previous"] != Flag(false)
              && payload["go_to_previous"] != Flag(true))
          || (payload["go_to_previous"] == Flag(true) && PreferenceDispatch.GoBack(payload).Err?))
    ensures rec.algo.family == Navigator && "go_to_previous" in payload
            && (payload["go_to_previous"] == Null || payload["go_to_previous"] == Flag(false)) ==>
      r == Ok(rec.lastRequest.value)
    ensures rec.algo.family == Navigator && "go_to_previous" in payload && payload["go_to_previous"] == Flag(true)
            && PreferenceDispatch.GoBack(payload).Ok? ==>
      r == Ok(One(PreferenceDispatch.GoBack(payload).value))
    ensures r.Ok? && r.value != rec.lastRequest.value ==>
      && rec.algo.family == Navigator
      && "go_to_previous" in payload && payload["go_to_previous"] == Flag(true)
      && PreferenceDispatch.GoBack(payload).Ok?
      && r.value == One(PreferenceDispatch.GoBack(payload).value)
  {
    var stored := rec.lastRequest.value;
    if rec.algo.family != Navigator then Ok(stored)
    else if "go_to_previous" !in payload then Err(stored)
    else
      var flag := payload["go_to_previous"];
      if flag == Null || flag == Flag(false) then Ok(stored)
      else if flag != Flag(true) then Err(stored)   // non-boolean flags: treated as raising
      else if PreferenceDispatch.GoBack(payload).Err? then Err(stored)
      else Ok(One(PreferenceDispatch.GoBack(payload).value))
  }

  /** The try block of `EAControl.post`: answer the pending request with the
      whole payload and iterate the method. Yields the new state and the one
      request to store (the first of a tuple), or the pending request(s) to
      echo when anything raised. */
  function Advance(e: Engine, rec: MethodRecord, payload: Dict): (r: Result<(Algo, Request), Pending>)
    requires rec.lastRequest.Some?
    ensures PendingToAnswer(rec, payload).Err? ==> r == Err(rec.lastRequest.value)
    ensures PendingToAnswer(rec, payload).Ok? && PendingToAnswer(rec, payload).value.Many? ==>
      r == Err(PendingToAnswer(rec, payload).value)
    ensures r.Ok? <==>
      && PendingToAnswer(rec, payload).Ok?
      && PendingToAnswer(rec, payload).value.One?
      && var answered := Answer(PendingToAnswer(rec, payload).value.request, WholeResponse(payload));
      && e.iterate(rec.algo, answered).Some?
      && (e.iterate(rec.algo, answered).value.1.Single? || |e.iterate(rec.algo, answered).value.1.requests| > 0)
    ensures r.Ok? ==>
      && PendingToAnswer(rec, payload).Ok?
      && PendingToAnswer(rec, payload).value.One?
      && var answered := Answer(PendingToAnswer(rec, payload).value.request, WholeResponse(payload));
      && e.iterate(rec.algo, answered).Some?
      && r.value.0 == e.iterate(rec.algo, answered).value.0
      && match e.iterate(rec.algo, answered).value.1
         case Single(next) => r.value.1 == next
         case Several(nexts) => |nexts| > 0 && r.value.1 == nexts[0]
    ensures r.Err? && PendingToAnswer(rec, payload).Ok? ==> r.error == PendingToAnswer(rec, payload).value
  {
    match PendingToAnswer(rec, payload)
    case Err(p) => Err(p)
    case Ok(p) =>
      match p
      case Many(_) => Err(p)   // a tuple has no `response` attribute
      case One(request) =>
        match e.iterate(rec.algo, Answer(request, WholeResponse(payload)))
        case None => Err(p)
        case Some(stepped) =>
          match stepped.1
          case Single(next) => Ok((stepped.0, next))
          case Several(nexts) => if |nexts| == 0 then Err(p) else Ok((stepped.0, nexts[0]))
  }

  /** The reply echoing the request(s) the client was answering. */
  function Echo(p: Pending): (b: Body)
    ensures p.One? ==> b == RetryOne(p.request.content)
    ensures p.Many? ==> b.RetryMany? && |b.lastRequests| == |p.requests|
    ensures p.Many? ==> forall i :: 0 <= i < |p.requests| ==> b.lastRequests[i] == p.requests[i].content
  {
    match p
    case One(request) => RetryOne(request.content)
    case Many(requests) => RetryMany(seq(|requests|, i requires 0 <= i < |requests| => requests[i].content))
  }

  /** The reply after a committed iteration: the population for RVEA, the
      next request's content for every other class. */
  function IterateReply(family: Family, algo: Algo, next: Request): (b: Body)
    ensures family == Rvea ==> b.IterateFront? && b.response == 0 && b.preferenceType == -1
    ensures family == Rvea ==> b.individuals == algo.population.individuals && b.objectives == algo.population.objectives
    ensures family == Rvea ==> b.ideal == algo.population.ideal && b.nadir == algo.population.nadir
    ensures family != Rvea ==> b == NextRequest(next.content)
  {
    if family == Rvea then
      IterateFront(0, -1, algo.population.individuals, algo.population.objectives,
                   algo.population.ideal, algo.population.nadir)
    else NextRequest(next.content)
  }

  /** `EAControl.post`, with the navigation class and the parser arguments
      resolved as intended (see `IterateAsWritten`). The status and the
      pending request are checked before the method is touched. A failure
      anywhere in the try block leaves the table as it was and echoes the
      request the client was answering; success replaces the algorithm
      state and the pending request together and keeps the status. */
  function Iterate(e: Engine, t: Table, o: Owner, payload: Dict): (out: Outcome)
    ensures Lookup(t, o).None? ==> out == Outcome(t, Reply(404, Message(NoMethodFound)))
    ensures Lookup(t, o).Some? && Lookup(t, o).value.status != Iterating ==>
      out == Outcome(t, Reply(400, Message("Method has not been started or is finished.")))
    ensures Lookup(t, o).Some? && Lookup(t, o).value.lastRequest.None? ==>
      out.table == t && out.reply.code == 400
    ensures out.reply.code != 200 ==> out.table == t
    ensures out.reply.code == 200 <==>
      && Lookup(t, o).Some?
      && Lookup(t, o).value.status == Iterating
      && Lookup(t, o).value.lastRequest.Some?
      && Advance(e, Lookup(t, o).value, payload).Ok?
    ensures out.reply.code == 200 ==>
      var rec := Lookup(t, o).value;
      var stepped := Advance(e, rec, payload).value;
      && Lookup(out.table, o) == Some(rec.(algo := stepped.0, lastRequest := Some(One(stepped.1))))
      && Lookup(out.table, o).value.status == Iterating
      && out.reply.body == IterateReply(rec.algo.family, stepped.0, stepped.1)
    ensures Lookup(t, o).Some? && Lookup(t, o).value.status == Iterating
            && Lookup(t, o).value.lastRequest.Some?
            && Advance(e, Lookup(t, o).value, payload).Err? ==>
      out == Outcome(t, Reply(400, Echo(Advance(e, Lookup(t, o).value, payload).error)))
    ensures forall o' :: o' != o ==> Lookup(out.table, o') == Lookup(t, o')
  {
    match Lookup(t, o)
    case None => Outcome(t, Reply(404, Message(NoMethodFound)))
    case Some(rec) =>
      if rec.status != Iterating then Outcome(t, Reply(400, Message("Method has not been started or is finished.")))
      else if rec.lastRequest.None? then Outcome(t, Reply(400, Message("The method has no last request defined.")))
      else
        match Advance(e, rec, payload)
        case Err(p) => Outcome(t, Reply(400, Echo(p)))
        case Ok(stepped) =>
          var rec' := rec.(algo := stepped.0, lastRequest := Some(One(stepped.1)));
          ReplaceThenLookup(t, o, rec');
          Outcome(Replace(t, o, rec'), Reply(200, IterateReply(rec.algo.family, stepped.0, stepped.1)))
  }

  /** `EAControl.post` as written: the try block first compares against the
      class `NautilusNavigator`, which the module never imports, so every
      request that passes the guards raises NameError and takes the abort
      path. */
  function IterateAsWritten(e: Engine, t: Table, o: Owner, payload: Dict): (out: Outcome)
    ensures out.table == t
    ensures out.reply.code != 200
    ensures Lookup(t, o).Some? && Lookup(t, o).value.status == Iterating && Lookup(t, o).value.lastRequest.Some? ==>
      out.reply == Reply(400, Echo(Lookup(t, o).value.lastRequest.value))
  {
    match Lookup(t, o)
    case None => Outcome(t, Reply(404, Message(NoMethodFound)))
    case Some(rec) =>
      if rec.status != Iterating then Outcome(t, Reply(400, Message("Method has not been started or is finished.")))
      else if rec.lastRequest.None? then Outcome(t, Reply(400, Message("The method has no last request defined.")))
      else Outcome(t, Reply(400, Echo(rec.lastRequest.value)))
  }

  /** `setInteractionType.get`: the interaction types the method allows. The
      attribute is read from whatever class is stored, so a record that is
      not an evolutionary method (a reference point method, say) raises and
      answers 500. */
  function InteractionTypesOf(e: Engine, t: Table, o: Owner): (r: Reply<Body>)
    ensures Lookup(t, o).None? <==> r.code == 404
    ensures r.code == 200 <==> Lookup(t, o).Some? && e.allowableTypes(Lookup(t, o).value.algo).Some?
    ensures r.code == 200 ==> r.body == InteractionTypes(e.allowableTypes(Lookup(t, o).value.algo).value)
    ensures Lookup(t, o).Some? && e.allowableTypes(Lookup(t, o).value.algo).None? ==> r == Reply(500, ServerError)
  {
    match Lookup(t, o)
    case None => Reply(404, Message(NoMethodFound))
    case Some(rec) =>
      match e.allowableTypes(rec.algo)
      case None => Reply(500, ServerError)
      case Some(types) => Reply(200, InteractionTypes(types))
  }

  /** `setInteractionType.post`: only an ITERATING method may switch its
      interaction type; the switched state is stored with the tuple of new
      requests as the pending request. */
  function SetInteractionType(e: Engine, t: Table, o: Owner, interactionType: string): (out: Outcome)
    ensures Lookup(t, o).None? ==> out == Outcome(t, Reply(404, Message(NoMethodFound)))
    ensures Lookup(t, o).Some? && Lookup(t, o).value.status != Iterating ==>
      out == Outcome(t, Reply(400, Message("Method has not been started or is finished.")))
    ensures out.reply.code != 200 ==> out.table == t
    ensures out.reply.code == 200 <==>
      && Lookup(t, o).Some?
      && Lookup(t, o).value.status == Iterating
      && e.setInteractionType(Lookup(t, o).value.algo, interactionType).Some?
      && e.requests(e.setInteractionType(Lookup(t, o).value.algo, interactionType).value).Some?
    ensures out.reply.code == 200 ==>
      && Lookup(t, o).Some?
      && var rec := Lookup(t, o).value;
      && rec.status == Iterating
      && e.setInteractionType(rec.algo, interactionType).Some?
      && var a := e.setInteractionType(rec.algo, interactionType).value;
      && e.requests(a).Some?
      && Lookup(out.table, o) == Some(rec.(algo := a, lastRequest := Some(Many(e.requests(a).value))))
      && out.reply.body == InteractionInfo(a.population.ideal, a.population.nadir, a.population.objectives)
    ensures forall o' :: o' != o ==> Lookup(out.table, o') == Lookup(t, o')
  {
    match Lookup(t, o)
    case None => Outcome(t, Reply(404, Message(NoMethodFound)))
    case Some(rec) =>
      if rec.status != Iterating then Outcome(t, Reply(400, Message("Method has not been started or is finished.")))
      else
        match e.setInteractionType(rec.algo, interactionType)
        case None => Outcome(t, Reply(500, ServerError))
        case Some(a) =>
          match e.requests(a)
          case None => Outcome(t, Reply(500, ServerError))
          case Some(requests) =>
            var rec' := rec.(algo := a, lastRequest := Some(Many(requests)));
            ReplaceThenLookup(t, o, rec');
            Outcome(Replace(t, o, rec'),
                    Reply(200, InteractionInfo(a.population.ideal, a.population.nadir, a.population.objectives)))
  }
}

=== FILE: engine.dfy ===
/** The algorithm library the handlers drive, seen from outside: every
    operation is an opaque function that may raise (None). */
module Engines {
  import opened Common
  import opened Values
  import opened SessionStore
  import opened Problems

  /** Which class to instantiate, and whether it runs interactively. */
  datatype Kind = Kind(family: Family, interact: bool)

  /** What an algorithm's `iterate` returns: one request, or a tuple of them. */
  datatype Produced = Single(request: Request) | Several(requests: seq<Request>)

  /** The algorithm operations the handlers call. */
  datatype Engine = Engine(
    construct: (Kind, Problem) -> Option<Algo>,              // the class constructor
    setInteractionType: (Algo, string) -> Option<Algo>,      // `set_interaction_type`
    start: Algo -> Option<(Algo, seq<Request>)>,             // `start`
    iterate: (Algo, Request) -> Option<(Algo, Produced)>,    // `iterate`
    requests: Algo -> Option<seq<Request>>,                  // `requests`
    allowableTypes: Algo -> Option<seq<string>>)             // `allowable_interaction_types`; None when the stored class lacks it

  /** A constructor builds the class and interactivity it was asked for, and
      an algorithm object never changes its class. */
  ghost predicate KeepsClass(e: Engine)
  {
    && (forall k, p :: e.construct(k, p).Some? ==>
          e.construct(k, p).value.family == k.family && e.construct(k, p).value.interact == k.interact)
    && (forall a, s :: e.setInteractionType(a, s).Some? ==> e.setInteractionType(a, s).value.family == a.family)
    && (forall a :: e.start(a).Some? ==> e.start(a).value.0.family == a.family)
    && (forall a, r :: e.iterate(a, r).Some? ==> e.iterate(a, r).value.0.family == a.family)
  }
}

=== FILE: log_models.dfy ===
/** The activity log entry and the check on its entry type. */
module LogModels {
  import opened Common

  /** `log_entry_types`. */
  const LogEntryTypes: seq<string> := ["Intermediate solution", "Final solution", "Preference", "Info"]

  /** The `ValueError` raised for an unlisted type, with the offending type
      and the list of acceptable ones. */
  datatype TypeError = NotAcceptable(given: string, acceptable: seq<string>)

  /** One stored entry; `data` is the only nullable column. The database id
      and the timestamp are left to the store. */
  datatype LogEntry = LogEntry(userId: int, entryType: string, data: Option<string>, info: string)

  /** `LogEntry.validate_type`. */
  function ValidateType(t: string): (r: Result<string, TypeError>)
    ensures r.Ok? <==> t == "Intermediate solution" || t == "Final solution" || t == "Preference" || t == "Info"
    ensures r.Ok? ==> r.value == t
    ensures r.Err? ==> r.error == NotAcceptable(t, LogEntryTypes)
  {
    if t !in LogEntryTypes then Err(NotAcceptable(t, LogEntryTypes)) else Ok(t)
  }

  /** Validating an accepted type again accepts it again, unchanged. */
  lemma ValidateTypeIdempotent(t: string)
    requires ValidateType(t).Ok?
    ensures ValidateType(ValidateType(t).value) == ValidateType(t)
  {
  }

  /** Building an entry as written: `validate_type` carries no `@validates`
      decorator, so it never runs and any entry type is stored. */
  function NewLogEntryAsWritten(userId: int, entryType: string, data: Option<string>, info: string): (r: Result<LogEntry, TypeError>)
    ensures r.Ok? && r.value.entryType == entryType && r.value.data == data && r.value.info == info
  {
    Ok(LogEntry(userId, entryType, data, info))
  }

  /** Building an entry with the type check run on assignment, as the
      imported `validates` decorator would do. */
  function NewLogEntry(userId: int, entryType: string, data: Option<string>, info: string): (r: Result<LogEntry, TypeError>)
    ensures r.Ok? <==> entryType in LogEntryTypes
    ensures r.Ok? ==> r.value == LogEntry(userId, entryType, data, info)
    ensures r.Err? ==> r.error == NotAcceptable(entryType, LogEntryTypes)
  {
    match ValidateType(entryType)
    case Err(e) => Err(e)
    case Ok(t) => Ok(LogEntry(userId, t, data, info))
  }

  /** An entry without data stores no data. */
  lemma EntryWithoutDataHasNone(userId: int, entryType: string, info: string)
    requires entryType in LogEntryTypes
    ensures NewLogEntry(userId, entryType, None, info).Ok?
    ensures NewLogEntry(userId, entryType, None, info).value.data.None?
  {
  }

  /** As written, an unlisted entry type is stored; the checked constructor refuses it. */
  lemma UnlistedTypeStoredAsWritten()
    ensures NewLogEntryAsWritten(1, "Debug", None, "x").Ok?
    ensures NewLogEntry(1, "Debug", None, "x").Err?
  {
    assert "Debug" !in LogEntryTypes;
  }
}

=== FILE: method_resources.dfy ===
/** The simpler create handler for scalarizing methods: registered users
    only, the reference point method under two names, one record per user. */
module MethodResources {
  import opened Common
  import opened SessionStore
  import opened Problems
  import opened Engines
  import opened Replies

  /** The keys of `available_methods`, in declaration order. */
  const AvailableMethods: seq<string> := ["reference_point_method", "reference_point_method_alt"]

  /** Both names build a reference point method from the problem's ideal and nadir. */
  const ReferencePointKind: Kind := Kind(ReferencePoint, false)

  /** `MethodCreate.get`: whether the user has a method. */
  function Describe(t: Table, username: string): (r: Reply<Body>)
    ensures r.code == 200 <==> RecordsOf(t, User(username)) != []
    ensures r.code != 200 ==> r == Reply(404, Message("No method found defined for the current user."))
  {
    LookupIsFirstRecord(t, User(username));
    if Lookup(t, User(username)).None? then Reply(404, Message("No method found defined for the current user."))
    else Reply(200, Message("Method found!"))
  }

  /** `MethodCreate.post`. The problem must be the user's own, and is looked
      up before the method name is checked; the problem type is not checked.
      On success the user's earlier records are deleted and the new one is
      inserted, leaving every other user's records alone. */
  function Create(e: Engine, t: Table, problems: seq<Problem>, username: string, problemId: int, name: string): (out: Outcome)
    ensures FindProblem(problems, User(username), problemId).None? ==>
      out == Outcome(t, Reply(404, ProblemNotFound(problemId)))
    ensures FindProblem(problems, User(username), problemId).Some? && name !in AvailableMethods ==>
      out == Outcome(t, Reply(404, UnknownMethod(name, AvailableMethods)))
    ensures out.reply.code != 201 ==> out.table == t
    ensures out.reply.code == 201 <==>
      && FindProblem(problems, User(username), problemId).Some?
      && name in AvailableMethods
      && e.construct(ReferencePointKind, FindProblem(problems, User(username), problemId).value).Some?
    ensures out.reply.code == 201 ==>
      var p := FindProblem(problems, User(username), problemId).value;
      && out.reply.body == Created(name, User(username))
      && RecordsOf(out.table, User(username))
         == [MethodRecord(name, e.construct(ReferencePointKind, p).value, p.minimize, NotStarted, None)]
      && forall o' :: o' != User(username) ==> RecordsOf(out.table, o') == RecordsOf(t, o')
  {
    match FindProblem(problems, User(username), problemId)
    case None => Outcome(t, Reply(404, ProblemNotFound(problemId)))
    case Some(p) =>
      if name !in AvailableMethods then Outcome(t, Reply(404, UnknownMethod(name, AvailableMethods)))
      else
        match e.construct(ReferencePointKind, p)
        case None => Outcome(t, Reply(500, ServerError))
        case Some(algo) =>
          Outcome(Reset(t, User(username), MethodRecord(name, algo, p.minimize, NotStarted, None)),
                  Reply(201, Created(name, User(username))))
  }

  /** The two accepted names build the same method: the tables they leave
      differ only in the stored name. */
  lemma BothNamesBuildSameMethod(e: Engine, t: Table, problems: seq<Problem>, username: string, problemId: int)
    requires Create(e, t, problems, username, problemId, AvailableMethods[0]).reply.code == 201
    ensures var a := Create(e, t, problems, username, problemId, AvailableMethods[0]);
      var b := Create(e, t, problems, username, problemId, AvailableMethods[1]);
      && b.reply.code == 201
      && b.table == a.table[|a.table| - 1 := Row(User(username), a.table[|a.table| - 1].record.(name := AvailableMethods[1]))]
  {
  }

  /** Creating twice leaves exactly one record, carrying the latest name. */
  lemma CreateTwiceKeepsLatest(e: Engine, t: Table, problems: seq<Problem>, username: string, problemId: int, first: string, second: string)
    requires Create(e, t, problems, username, problemId, first).reply.code == 201
    requires Create(e, Create(e, t, problems, username, problemId, first).table, problems, username, problemId, second).reply.code == 201
    ensures var t2 := Create(e, Create(e, t, problems, username, problemId, first).table, problems, username, problemId, second).table;
      && |RecordsOf(t2, User(username))| == 1
      && RecordsOf(t2, User(username))[0].name == second
      && forall o' :: o' != User(username) ==> RecordsOf(t2, o') == RecordsOf(t, o')
  {
  }

  /** Creating keeps at most one record per owner, each NOT STARTED exactly
      when it has no pending request. */
  lemma CreateKeepsValid(e: Engine, t: Table, problems: seq<Problem>, username: string, problemId: int, name: string)
    requires Valid(t)
    ensures Valid(Create(e, t, problems, username, problemId, name).table)
  {
    var out := Create(e, t, problems, username, problemId, name);
    if out.reply.code == 201 {
      var p := FindProblem(problems, User(username), problemId).value;
      ResetKeepsValid(t, User(username), MethodRecord(name, e.construct(ReferencePointKind, p).value, p.minimize, NotStarted, None));
    }
  }
}

=== FILE: nimbus.dfy ===
/** The NIMBUS initialisation handler: the input guard, the problem lookup,
    and the bounds, maximisation flags and default preference it reports.
    Arithmetic is exact (`real`) where the source uses floats. */
module NimbusInitialize {
  import opened Common
  import opened Problems

  /** The `initialSolution` argument after parsing. The parser declares it
      with `type=list`, so `NotAList` never reaches the handler; it is kept
      because the guard tests for it. */
  datatype InitialSolution = Absent | Given(xs: seq<real>) | NotAList

  /** The guard as written: `x is not None or not isinstance(x, list)`. */
  predicate RejectedAsWritten(x: InitialSolution)
  {
    !x.Absent? || !x.Given?
  }

  /** The guard as its message describes it: reject what is neither None nor a list. */
  predicate Rejected(x: InitialSolution)
  {
    !x.Absent? && !x.Given?
  }

  /** The written guard rejects every input, a list and a missing value alike. */
  lemma GuardAsWrittenRejectsAll(x: InitialSolution)
    ensures RejectedAsWritten(x)
  {
  }

  /** The intended guard admits exactly a list or no value. */
  lemma GuardAdmitsListOrNone(x: InitialSolution)
    ensures !Rejected(x) <==> x == Absent || x.Given?
  {
  }

  function Min(a: real, b: real): (r: real) { if a <= b then a else b }
  function Max(a: real, b: real): (r: real) { if a <= b then b else a }

  /** Column `i` of `vstack((ideal, nadir)) * multiplier`, smaller entry first. */
  function Lower(ideal: seq<real>, nadir: seq<real>, m: seq<real>, i: int): (r: real)
    requires 0 <= i < |m| && |ideal| == |m| && |nadir| == |m|
  {
    Min(ideal[i] * m[i], nadir[i] * m[i])
  }

  function Upper(ideal: seq<real>, nadir: seq<real>, m: seq<real>, i: int): (r: real)
    requires 0 <= i < |m| && |ideal| == |m| && |nadir| == |m|
  {
    Max(ideal[i] * m[i], nadir[i] * m[i])
  }

  /** The column-wise minimum and maximum of `vstack((ideal, nadir)) * multiplier`;
      numpy raises when the three lengths disagree. */
  function Bounds(ideal: seq<real>, nadir: seq<real>, m: seq<real>): (r: Option<(seq<real>, seq<real>)>)
    ensures r.Some? <==> |ideal| == |m| && |nadir| == |m|
    ensures r.Some? ==> |r.value.0| == |m| && |r.value.1| == |m|
    ensures r.Some? ==> forall i :: 0 <= i < |m| ==>
      && r.value.0[i] <= ideal[i] * m[i] && r.value.0[i] <= nadir[i] * m[i]
      && (r.value.0[i] == ideal[i] * m[i] || r.value.0[i] == nadir[i] * m[i])
    ensures r.Some? ==> forall i :: 0 <= i < |m| ==>
      && r.value.1[i] >= ideal[i] * m[i] && r.value.1[i] >= nadir[i] * m[i]
      && (r.value.1[i] == ideal[i] * m[i] || r.value.1[i] == nadir[i] * m[i])
  {
    if |ideal| != |m| || |nadir| != |m| then None
    else
      var lower := seq(|m|, i requires 0 <= i < |m| => Lower(ideal, nadir, m, i));
      var upper := seq(|m|, i requires 0 <= i < |m| => Upper(ideal, nadir, m, i));
      Some((lower, upper))
  }

  /** Every lower bound is at most its upper bound. */
  lemma BoundsOrdered(ideal: seq<real>, nadir: seq<real>, m: seq<real>)
    requires Bounds(ideal, nadir, m).Some?
    ensures var b := Bounds(ideal, nadir, m).value;
      forall i :: 0 <= i < |m| ==> b.0[i] <= b.1[i]
  {
  }

  /** Swapping the ideal and the nadir leaves the bounds as they were. */
  lemma BoundsSymmetric(ideal: seq<real>, nadir: seq<real>, m: seq<real>)
    ensures Bounds(nadir, ideal, m) == Bounds(ideal, nadir, m)
  {
    if Bounds(ideal, nadir, m).Some? {
      var b := Bounds(ideal, nadir, m).value;
      var c := Bounds(nadir, ideal, m).value;
      assert c.0 == b.0;
      assert c.1 == b.1;
    }
  }

  /** `[bool(multiplier == -1) for multiplier in _max_multiplier]`. */
  function IsMaximized(m: seq<real>): (r: seq<bool>)
    ensures |r| == |m|
    ensures forall i :: 0 <= i < |m| ==> (r[i] <==> m[i] == -1.0)
  {
    seq(|m|, i requires 0 <= i < |m| => m[i] == -1.0)
  }

  /** `(lower + upper) / 2`. */
  function Midpoint(lower: seq<real>, upper: seq<real>): (r: seq<real>)
    requires |lower| == |upper|
    ensures |r| == |lower|
    ensures forall i :: 0 <= i < |lower| && lower[i] <= upper[i] ==> lower[i] <= r[i] <= upper[i]
    ensures forall i :: 0 <= i < |lower| ==> r[i] - lower[i] == upper[i] - r[i]
  {
    seq(|lower|, i requires 0 <= i < |lower| => (lower[i] + upper[i]) / 2.0)
  }

  /** `initial_solution or midpoint`: Python's `or` also falls back on an empty list. */
  function PreviousPreference(initial: InitialSolution, lower: seq<real>, upper: seq<real>): (r: seq<real>)
    requires |lower| == |upper|
    ensures initial.Given? && |initial.xs| > 0 ==> r == initial.xs
    ensures !(initial.Given? && |initial.xs| > 0) ==> r == Midpoint(lower, upper)
  {
    if initial.Given? && |initial.xs| > 0 then initial.xs else Midpoint(lower, upper)
  }

  /** The fields of the NIMBUS reply this model computes. */
  datatype Body =
    | Message(text: string)
    | ServerError
    | NimbusStart(isMaximized: seq<bool>, lowerBounds: seq<real>, upperBounds: seq<real>,
                  previousPreference: seq<real>)

  /** Everything `Initialize.post` does once its guard has passed. */
  function AfterGuard(problems: seq<Problem>, o: Owner, problemId: int, initial: InitialSolution): (r: Reply<Body>)
  {
    match FindProblem(problems, o, problemId)
    case None => Reply(404, Message("No problem with given ID found for the current user."))
    case Some(p) =>
      match Bounds(p.ideal, p.nadir, p.maxMultiplier)
      case None => Reply(500, ServerError)
      case Some(b) =>
        BoundsOrdered(p.ideal, p.nadir, p.maxMultiplier);
        Reply(200, NimbusStart(IsMaximized(p.maxMultiplier), b.0, b.1, PreviousPreference(initial, b.0, b.1)))
  }

  /** `Initialize.post` with the guard as intended: refuse what is neither a
      list nor missing, then refuse a problem the caller does not own; the
      reply reports the bounds, the maximised objectives and the default
      preference. */
  function Initialize(problems: seq<Problem>, o: Owner, problemId: int, initial: InitialSolution): (r: Reply<Body>)
    ensures Rejected(initial) ==> r == Reply(400, Message("Initial solution must be a list or None"))
    ensures !Rejected(initial) && FindProblem(problems, o, problemId).None? ==> r.code == 404
    ensures r.code == 200 <==>
      && !Rejected(initial)
      && FindProblem(problems, o, problemId).Some?
      && var p := FindProblem(problems, o, problemId).value;
      && |p.ideal| == |p.maxMultiplier| && |p.nadir| == |p.maxMultiplier|
    ensures r.code == 200 ==>
      var p := FindProblem(problems, o, problemId).value;
      && r.body.NimbusStart?
      && |r.body.isMaximized| == |p.maxMultiplier|
      && (forall i :: 0 <= i < |p.maxMultiplier| ==> (r.body.isMaximized[i] <==> p.maxMultiplier[i] == -1.0))
      && (r.body.lowerBounds, r.body.upperBounds) == Bounds(p.ideal, p.nadir, p.maxMultiplier).value
      && (forall i :: 0 <= i < |p.maxMultiplier| ==> r.body.lowerBounds[i] <= r.body.upperBounds[i])
      && ((initial.Given? && |initial.xs| > 0) ==> r.body.previousPreference == initial.xs)
      && (!(initial.Given? && |initial.xs| > 0) ==>
            |r.body.lowerBounds| == |r.body.upperBounds| &&
            r.body.previousPreference == Midpoint(r.body.lowerBounds, r.body.upperBounds))
      && (!(initial.Given? && |initial.xs| > 0) ==>
            |r.body.previousPreference| == |p.maxMultiplier| &&
            forall i :: 0 <= i < |p.maxMultiplier| ==>
              r.body.lowerBounds[i] <= r.body.previousPreference[i] <= r.body.upperBounds[i])
  {
    if Rejected(initial) then Reply(400, Message("Initial solution must be a list or None"))
    else AfterGuard(problems, o, problemId, initial)
  }

  /** `Initialize.post` as written: the guard holds for every input, so the
      handler answers 400 before it looks anything up. */
  function InitializeAsWritten(problems: seq<Problem>, o: Owner, problemId: int, initial: InitialSolution): (r: Reply<Body>)
    ensures r == Reply(400, Message("Initial solution must be a list or None"))
  {
    if RejectedAsWritten(initial) then Reply(400, Message("Initial solution must be a list or None"))
    else AfterGuard(problems, o, problemId, initial)
  }

  /** A request without an initial solution, for a problem the caller owns,
      is refused as written and answered by the intended guard. */
  lemma InitializeAsWrittenRefusesOwnedProblem()
    ensures var p := Problem(7, User("u"), "river", "Analytical", "[1, 1]", [0.0, 1.0], [2.0, 3.0], [1.0, -1.0]);
      && InitializeAsWritten([p], User("u"), 7, Absent).code == 400
      && Initialize([p], User("u"), 7, Absent).code == 200
  {
    var p := Problem(7, User("u"), "river", "Analytical", "[1, 1]", [0.0, 1.0], [2.0, 3.0], [1.0, -1.0]);
    assert FindProblem([p], User("u"), 7) == Some(p);
  }
}

=== FILE: preference_dispatch.dfy ===
/** How a client's generic response payload becomes the preference an
    evolutionary method expects (`EAControlPost`), and how a navigation
    method's earlier request is rebuilt from a resent response ("go back"). */
module PreferenceDispatch {
  import opened Common
  import opened Values

  /** What raising looks like in the dispatcher. */
  datatype DispatchError =
    | MissingKey(key: string)                 // KeyError on the payload or on a request's content
    | InvalidIndex(preferenceType: int)       // the explicit ValueError for an index past the end
    | OutOfRange(preferenceType: int)         // IndexError from Python's sequence indexing
    | NotAnArray                              // preference data numpy cannot lift to a numeric matrix
    | Ragged                                  // rows of unequal length
    | NoColumns                               // `dimensions_data` is not a table (AttributeError)
    | ShapeMismatch(width: nat, columns: nat) // DataFrame rows do not fit the columns

  /** What the dispatcher yields. */
  datatype Dispatched =
    | Classification(currentSolution: Value, classifications: Value, levels: Value)
    | NoPreference
    | Selected(request: Request)

  /** Python's `xs[i]` on a sequence of length `n`: the position read, or
      None where Python raises IndexError. */
  function PyIndex(n: nat, i: int): (k: Option<nat>)
    ensures k.Some? <==> -(n as int) <= i < n
    ensures k.Some? ==> k.value < n && (k.value == i || k.value == n + i)
  {
    if 0 <= i < n then Some(i)
    else if -(n as int) <= i < 0 then Some(n + i)
    else None
  }

  /** All rows have the width of the first. */
  predicate Rectangular(rows: seq<seq<real>>)
  {
    forall i :: 0 <= i < |rows| ==> |rows[i]| == |rows[0]|
  }

  /** `np.atleast_2d` on numeric preference data: a scalar becomes a 1x1
      matrix, a vector a one-row matrix, and a matrix stays as it is. */
  function AtLeast2d(v: Value): (r: Result<seq<seq<real>>, DispatchError>)
    ensures r.Ok? ==> |r.value| >= 1 && Rectangular(r.value)
    ensures v.Num? ==> r == Ok([[v.x]])
    ensures v.Vector? ==> r == Ok([v.xs])
    ensures v.Grid? && |v.rows| == 0 ==> r == Ok([[]])
    ensures v.Grid? && |v.rows| > 0 ==> (r.Ok? <==> Rectangular(v.rows))
    ensures v.Grid? && |v.rows| > 0 && r.Ok? ==> r.value == v.rows
    ensures r.Err? <==> !(v.Num? || v.Vector? || v.Grid?) || (v.Grid? && !Rectangular(v.rows))
  {
    match v
    case Num(x) => Ok([[x]])
    case Vector(xs) => Ok([xs])
    case Grid(rows) =>
      if |rows| == 0 then Ok([[]])
      else if Rectangular(rows) then Ok(rows)
      else Err(Ragged)
    case _ => Err(NotAnArray)
  }

  /** Lifting is idempotent: lifting an already lifted matrix changes nothing. */
  lemma AtLeast2dIdempotent(v: Value)
    requires AtLeast2d(v).Ok?
    ensures AtLeast2d(Grid(AtLeast2d(v).value)) == AtLeast2d(v)
  {
  }

  /** `EAControlPost`: resolves a preference-type index against the pending
      requests and the client payload.
        5: the three classification fields, whatever the requests are;
        any other index past the end of the requests: ValueError;
        0: no preference (after Python has read the last request);
        1, 2: the selected request answered with the raw preference data;
        3: answered with a table over the request's `dimensions_data` columns;
        4: answered with the preference data lifted to a matrix;
        other indices: the request Python's indexing reaches, untouched. */
  function Dispatch(preferenceType: int, pending: seq<Request>, payload: Dict): (r: Result<Dispatched, DispatchError>)
    ensures preferenceType == 5 ==>
      (r.Ok? <==> "current_solution" in payload && "classifications" in payload && "levels" in payload)
    ensures preferenceType == 5 && r.Ok? ==>
      r.value == Classification(payload["current_solution"], payload["classifications"], payload["levels"])
    ensures preferenceType != 5 && preferenceType > |pending| ==> r == Err(InvalidIndex(preferenceType))
    ensures preferenceType == 0 ==> (r.Ok? <==> |pending| > 0)
    ensures preferenceType == 0 && r.Ok? ==> r.value == NoPreference
    ensures 1 <= preferenceType <= 4 && r.Ok? ==>
      && preferenceType <= |pending|
      && r.value.Selected?
      && r.value.request.content == pending[preferenceType - 1].content
      && r.value.request.response.Some?
    ensures 1 <= preferenceType <= 2 ==>
      (r.Ok? <==> preferenceType <= |pending| && "preference_data" in payload)
    ensures 1 <= preferenceType <= 2 && r.Ok? ==>
      r.value.request.response == Some(RawData(payload["preference_data"]))
    ensures preferenceType == 4 ==>
      (r.Ok? <==> 4 <= |pending| && "preference_data" in payload && AtLeast2d(payload["preference_data"]).Ok?)
    ensures preferenceType == 3 ==>
      (r.Ok? <==>
        && 3 <= |pending|
        && "preference_data" in payload
        && AtLeast2d(payload["preference_data"]).Ok?
        && "dimensions_data" in pending[2].content
        && pending[2].content["dimensions_data"].Table?
        && |AtLeast2d(payload["preference_data"]).value[0]| == |pending[2].content["dimensions_data"].columns|)
    ensures preferenceType == 4 && r.Ok? ==>
      && "preference_data" in payload
      && AtLeast2d(payload["preference_data"]).Ok?
      && r.value.request.response == Some(BoundMatrix(AtLeast2d(payload["preference_data"]).value))
    ensures preferenceType == 3 && r.Ok? ==>
      && "dimensions_data" in pending[2].content
      && pending[2].content["dimensions_data"].Table?
      && r.value.request.response.value.Frame?
      && r.value.request.response.value.columns == pending[2].content["dimensions_data"].columns
      && "preference_data" in payload
      && AtLeast2d(payload["preference_data"]).Ok?
      && r.value.request.response.value.rows == AtLeast2d(payload["preference_data"]).value
      && forall i :: 0 <= i < |r.value.request.response.value.rows| ==>
           |r.value.request.response.value.rows[i]| == |r.value.request.response.value.columns|
    ensures (preferenceType < 0 || preferenceType > 5) && preferenceType <= |pending| ==>
      (r.Ok? <==> 0 <= |pending| + preferenceType - 1)
    ensures (preferenceType < 0 || preferenceType > 5) && r.Ok? ==>
      && PyIndex(|pending|, preferenceType - 1).Some?
      && r.value == Selected(pending[PyIndex(|pending|, preferenceType - 1).value])
  {
    if preferenceType == 5 then
      if "current_solution" !in payload then Err(MissingKey("current_solution"))
      else if "classifications" !in payload then Err(MissingKey("classifications"))
      else if "levels" !in payload then Err(MissingKey("levels"))
      else Ok(Classification(payload["current_solution"], payload["classifications"], payload["levels"]))
    else if preferenceType > |pending| then Err(InvalidIndex(preferenceType))
    else
      match PyIndex(|pending|, preferenceType - 1)
      case None => Err(OutOfRange(preferenceType))
      case Some(k) =>
        var selected := pending[k];
        if preferenceType == 0 then Ok(NoPreference)
        else if preferenceType == 1 || preferenceType == 2 then
          if "preference_data" !in payload then Err(MissingKey("preference_data"))
          else Ok(Selected(Answer(selected, RawData(payload["preference_data"]))))
        else if preferenceType == 3 || preferenceType == 4 then
          if "preference_data" !in payload then Err(MissingKey("preference_data"))
          else
            match AtLeast2d(payload["preference_data"])
            case Err(e) => Err(e)
            case Ok(rows) =>
              if preferenceType == 4 then Ok(Selected(Answer(selected, BoundMatrix(rows))))
              else if "dimensions_data" !in selected.content then Err(MissingKey("dimensions_data"))
              else if !selected.content["dimensions_data"].Table? then Err(NoColumns)
              else
                var columns := selected.content["dimensions_data"].columns;
                if |rows[0]| != |columns| then Err(ShapeMismatch(|rows[0]|, |columns|))
                else Ok(Selected(Answer(selected, Frame(columns, rows))))
        else Ok(Selected(selected))
  }

  /** The classification passthrough reads only the payload. */
  lemma ClassificationIgnoresRequests(pending: seq<Request>, pending': seq<Request>, payload: Dict)
    ensures Dispatch(5, pending, payload) == Dispatch(5, pending', payload)
  {
  }

  /** For indices 1 to 4 only the selected request matters: two request
      lists that agree on it dispatch alike. */
  lemma DispatchReadsOnlySelected(preferenceType: int, pending: seq<Request>, pending': seq<Request>, payload: Dict)
    requires 1 <= preferenceType <= 4
    requires preferenceType <= |pending| && preferenceType <= |pending'|
    requires pending[preferenceType - 1] == pending'[preferenceType - 1]
    ensures Dispatch(preferenceType, pending, payload) == Dispatch(preferenceType, pending', payload)
  {
  }

  /** The twelve fields a navigation request is rebuilt from, in constructor order. */
  const NavigationKeys: seq<string> := [
    "ideal", "nadir", "reachable_lb", "reachable_ub", "user_bounds", "reachable_idx",
    "step_number", "steps_remaining", "distance", "allowed_speeds", "current_speed",
    "navigation_point"]

  /** The first of `keys` the payload lacks, which is the KeyError Python raises. */
  function FirstMissing(keys: seq<string>, payload: Dict): (m: Option<string>)
    ensures m.None? <==> forall i :: 0 <= i < |keys| ==> keys[i] in payload
    ensures m.Some? ==> m.value in keys && m.value !in payload
    ensures m.Some? ==> exists i :: 0 <= i < |keys| && keys[i] == m.value && forall j :: 0 <= j < i ==> keys[j] in payload
  {
    if |keys| == 0 then None
    else if keys[0] !in payload then Some(keys[0])
    else
      var m := FirstMissing(keys[1..], payload);
      assert forall i :: 0 < i < |keys| ==> keys[i] == keys[1..][i - 1];
      m
  }

  /** Going back: a navigation request rebuilt field for field from a
      response body the client resends. */
  function GoBack(payload: Dict): (r: Result<Request, DispatchError>)
    ensures r.Ok? <==> forall k :: k in NavigationKeys ==> k in payload
    ensures r.Err? ==> r.error.MissingKey? && r.error.key in NavigationKeys && r.error.key !in payload
    ensures r.Ok? ==> r.value.response.None?
    ensures r.Ok? ==> r.value.content.Keys == set k | k in NavigationKeys
    ensures r.Ok? ==> forall k :: k in NavigationKeys ==> r.value.content[k] == payload[k]
  {
    match FirstMissing(NavigationKeys, payload)
    case Some(k) => Err(MissingKey(k))
    case None => Ok(Request(map k | k in NavigationKeys && k in payload :: payload[k], None))
  }

  /** Replaying a rebuilt request's content rebuilds the same request, so the
      same step is reproduced however often it is resent. */
  lemma GoBackReplay(payload: Dict)
    requires GoBack(payload).Ok?
    ensures GoBack(GoBack(payload).value.content) == GoBack(payload)
  {
    var c := GoBack(payload).value.content;
    assert (map k | k in NavigationKeys && k in c :: c[k]) == c;
  }

  /** Two payloads that agree on the twelve fields rebuild the same request,
      whatever else they carry. */
  lemma GoBackReadsOnlyNavigationFields(p: Dict, q: Dict)
    requires forall k :: k in NavigationKeys ==> (k in p <==> k in q)
    requires forall k :: k in NavigationKeys && k in p ==> p[k] == q[k]
    ensures GoBack(p) == GoBack(q)
  {
    if GoBack(p).Ok? {
      assert (map k | k in NavigationKeys && k in p :: p[k]) == (map k | k in NavigationKeys && k in q :: q[k]);
    } else {
      assert FirstMissing(NavigationKeys, p) == FirstMissing(NavigationKeys, q) by {
        FirstMissingReadsOnlyKeys(NavigationKeys, p, q);
      }
    }
  }

  lemma {:induction false} FirstMissingReadsOnlyKeys(keys: seq<string>, p: Dict, q: Dict)
    requires forall k :: k in keys ==> (k in p <==> k in q)
    ensures FirstMissing(keys, p) == FirstMissing(keys, q)
  {
    if |keys| > 0 && keys[0] in p {
      FirstMissingReadsOnlyKeys(keys[1..], p, q);
    }
  }
}

=== FILE: problem_resources.dfy ===
/** Problem creation: the one problem type the service admits, and the
    echo it sends back for an admitted request. */
module ProblemResources {
  import opened Common

  /** `available_problem_types`. */
  const AvailableProblemTypes: seq<string> := ["Analytical"]

  datatype Body =
    | Message(text: string)
    | Rejected(message: string, available: seq<string>)
    | Echo(problemType: string, name: string, owner: string)

  /** `ProblemCreation.get`: a fixed message, whoever asks. */
  function Describe(): (r: Reply<Body>)
    ensures r == Reply(200, Message("Available problem types"))
  {
    Reply(200, Message("Available problem types"))
  }

  /** `ProblemCreation.post`: an unlisted type is refused with 406; a listed
      one is answered with 201 and an echo of the request and its caller. */
  function Create(username: string, problemType: string, name: string): (r: Reply<Body>)
    ensures r.code == 201 <==> problemType == "Analytical"
    ensures r.code != 201 ==> r == Reply(406, Rejected("The problem type must be one of", AvailableProblemTypes))
    ensures r.code == 201 ==> r.body == Echo(problemType, name, username)
  {
    if problemType !in AvailableProblemTypes then
      Reply(406, Rejected("The problem type must be one of", AvailableProblemTypes))
    else
      Reply(201, Echo(problemType, name, username))
  }

  /** Admission looks at the problem type only: two requests with the same
      type get the same code, whatever their name and caller. */
  lemma AdmissionDependsOnlyOnType(u1: string, u2: string, problemType: string, n1: string, n2: string)
    ensures Create(u1, problemType, n1).code == Create(u2, problemType, n2).code
    ensures Create(u1, problemType, n1).code == 406 ==> Create(u1, problemType, n1) == Create(u2, problemType, n2)
  {
  }
}

=== FILE: problems.dfy ===
/** The stored problems the handlers look up: `Problem` rows for
    registered users and `GuestProblem` rows for guests, with the columns
    the method handlers read. */
module Problems {
  import opened Common

  /** A stored problem. `ideal`, `nadir` and `maxMultiplier` are the
      attributes of the pickled problem object that the handlers read;
      `maxMultiplier[i]` is -1 for a maximised objective and 1 otherwise. */
  datatype Problem = Problem(
    id: int,
    owner: Owner,
    name: string,
    problemType: string,
    minimize: string,
    ideal: seq<real>,
    nadir: seq<real>,
    maxMultiplier: seq<real>)

  /** `filter_by(owner, id=problemId).first()`: the first row of that owner
      with that id, if any. */
  function FindProblem(problems: seq<Problem>, o: Owner, problemId: int): (r: Option<Problem>)
    ensures r.None? <==> forall i :: 0 <= i < |problems| ==> !(problems[i].owner == o && problems[i].id == problemId)
    ensures r.Some? ==> r.value in problems && r.value.owner == o && r.value.id == problemId
  {
    if |problems| == 0 then None
    else if problems[0].owner == o && problems[0].id == problemId then Some(problems[0])
    else
      var r := FindProblem(problems[1..], o, problemId);
      assert forall i :: 0 < i < |problems| ==> problems[i] == problems[1..][i - 1];
      r
  }

  /** `[p.id for p in filter_by(owner).all()]`: the ids of the owner's problems. */
  function OwnedIds(problems: seq<Problem>, o: Owner): (ids: seq<int>)
    ensures forall id :: id in ids <==> exists p :: p in problems && p.owner == o && p.id == id
  {
    if |problems| == 0 then []
    else
      var rest := OwnedIds(problems[1..], o);
      assert forall p :: p in problems <==> p == problems[0] || p in problems[1..];
      (if problems[0].owner == o then [problems[0].id] else []) + rest
  }

  /** An id is among the owner's ids exactly when the owner's lookup of it succeeds. */
  lemma OwnedIdsAgreeWithFind(problems: seq<Problem>, o: Owner, problemId: int)
    ensures problemId in OwnedIds(problems, o) <==> FindProblem(problems, o, problemId).Some?
  {
    if problemId in OwnedIds(problems, o) {
      var p :| p in problems && p.owner == o && p.id == problemId;
      var i :| 0 <= i < |problems| && problems[i] == p;
    }
  }
}

=== FILE: replies.dfy ===
/** Reply bodies of the method handlers, and the pair every handler
    produces: the table after the request, and the reply. */
module Replies {
  import opened Common
  import opened Values
  import opened SessionStore

  datatype Body =
    | Message(text: string)
    | ServerError                                        // an exception nothing catches
    | ProblemNotFound(problemId: int)
    | UnknownMethod(name: string, available: seq<string>)
    | Created(methodName: string, owner: Owner)
    | StartFront(response: int, preferenceType: int,
                 individuals: seq<seq<real>>, objectives: seq<seq<real>>)
    | IterateFront(response: int, preferenceType: int,
                   individuals: seq<seq<real>>, objectives: seq<seq<real>>,
                   ideal: seq<real>, nadir: seq<real>)
    | NextRequest(content: Dict)
    | RetryOne(lastRequest: Dict)                        // the request the client was answering
    | RetryMany(lastRequests: seq<Dict>)                 // one dump per element of a tuple
    | InteractionInfo(ideal: seq<real>, nadir: seq<real>, solutions: seq<seq<real>>)
    | InteractionTypes(types: seq<string>)

  datatype Outcome = Outcome(table: Table, reply: Reply<Body>)
}

=== FILE: session_store.dfy ===
/** The `method` table: one stored method record per owner, as the
    create handlers keep it. A record holds the pickled algorithm instance,
    its status, and the request(s) the method is waiting on. */
module SessionStore {
  import opened Common
  import opened Values

  /** The two statuses any handler writes; no code path writes a finished one. */
  datatype Status = NotStarted | Iterating

  /** The runtime type of the unpickled algorithm, which the handlers
      inspect to decide how to drive and answer it. */
  datatype Family = Rvea | Nsgaiii | ReferencePoint | Navigator

  /** The current population an evolutionary method exposes, together with
      its problem's ideal and nadir points. */
  datatype Population = Population(
    individuals: seq<seq<real>>,
    objectives: seq<seq<real>>,
    ideal: seq<real>,
    nadir: seq<real>)

  /** A pickled algorithm instance. `internal` is an opaque handle for all
      of its state that the handlers never look at. */
  datatype Algo = Algo(family: Family, interact: bool, population: Population, internal: nat)

  /** What a started method waits for an answer to: one request, or a
      tuple of parallel requests (one per interaction type). */
  datatype Pending = One(request: Request) | Many(requests: seq<Request>)

  /** One stored method record. */
  datatype MethodRecord = MethodRecord(
    name: string,
    algo: Algo,
    minimize: string,
    status: Status,
    lastRequest: Option<Pending>)

  datatype Row = Row(owner: Owner, record: MethodRecord)

  /** The table, in insertion order. */
  type Table = seq<Row>

  /** `filter_by(owner).all()`: the owner's records in table order. */
  function RecordsOf(t: Table, o: Owner): (rs: seq<MethodRecord>)
  {
    if |t| == 0 then []
    else (if t[0].owner == o then [t[0].record] else []) + RecordsOf(t[1..], o)
  }

  /** `filter_by(owner).first()`. */
  function Lookup(t: Table, o: Owner): (r: Option<MethodRecord>)
    ensures r.Some? ==> r.value in RecordsOf(t, o)
  {
    if |t| == 0 then None
    else if t[0].owner == o then Some(t[0].record)
    else Lookup(t[1..], o)
  }

  /** `.first()` is the head of `.all()`, and is missing exactly when the
      owner has no record. */
  lemma {:induction false} LookupIsFirstRecord(t: Table, o: Owner)
    ensures Lookup(t, o).None? <==> RecordsOf(t, o) == []
    ensures Lookup(t, o).Some? ==> Lookup(t, o).value == RecordsOf(t, o)[0]
  {
    if |t| > 0 && t[0].owner != o {
      LookupIsFirstRecord(t[1..], o);
    }
  }

  /** `filter_by(owner).delete()`: removes every record of the owner and
      keeps everybody else's records, in order. */
  function DeleteOwner(t: Table, o: Owner): (r: Table)
    ensures RecordsOf(r, o) == []
    ensures forall o' :: o' != o ==> RecordsOf(r, o') == RecordsOf(t, o')
    ensures forall i :: 0 <= i < |r| ==> r[i] in t
  {
    if |t| == 0 then []
    else if t[0].owner == o then DeleteOwner(t[1..], o)
    else
      var rest := DeleteOwner(t[1..], o);
      assert forall i :: 0 < i < |[t[0]] + rest| ==> ([t[0]] + rest)[i] == rest[i - 1];
      [t[0]] + rest
  }

  lemma {:induction false} RecordsOfAppend(t: Table, row: Row, o: Owner)
    ensures RecordsOf(t + [row], o)
         == RecordsOf(t, o) + (if row.owner == o then [row.record] else [])
  {
    if |t| == 0 {
      assert t + [row] == [row] + [];
      RecordsOfCons(row, []);
    } else {
      assert t + [row] == [t[0]] + (t[1..] + [row]);
      assert t == [t[0]] + t[1..];
      RecordsOfCons(t[0], t[1..] + [row]);
      RecordsOfCons(t[0], t[1..]);
      RecordsOfAppend(t[1..], row, o);
    }
  }

  /** The create handlers' delete-then-insert: afterwards the owner has
      exactly the new record, and nobody else's records changed. */
  function Reset(t: Table, o: Owner, rec: MethodRecord): (r: Table)
    ensures RecordsOf(r, o) == [rec]
    ensures Lookup(r, o) == Some(rec)
    ensures forall o' :: o' != o ==> RecordsOf(r, o') == RecordsOf(t, o')
  {
    var kept := DeleteOwner(t, o);
    RecordsOfAppend(kept, Row(o, rec), o);
    forall o' | o' != o
      ensures RecordsOf(kept + [Row(o, rec)], o') == RecordsOf(t, o')
    {
      RecordsOfAppend(kept, Row(o, rec), o');
    }
    LookupIsFirstRecord(kept + [Row(o, rec)], o);
    kept + [Row(o, rec)]
  }

  /** Unfolding `.all()` on a table with a known first row, for every owner at once. */
  lemma RecordsOfCons(row: Row, t: Table)
    ensures forall o :: RecordsOf([row] + t, o) == (if row.owner == o then [row.record] else []) + RecordsOf(t, o)
  {
    assert ([row] + t)[1..] == t;
  }

  /** Assigning to the fields of the owner's first record and committing:
      that record becomes `rec`, every other record stays. */
  function Replace(t: Table, o: Owner, rec: MethodRecord): (r: Table)
    ensures |r| == |t|
    ensures RecordsOf(t, o) == [] ==> RecordsOf(r, o) == []
    ensures RecordsOf(t, o) != [] ==> RecordsOf(r, o) == [rec] + RecordsOf(t, o)[1..]
    ensures forall o' :: o' != o ==> RecordsOf(r, o') == RecordsOf(t, o')
  {
    if |t| == 0 then []
    else
      var head := if t[0].owner == o then Row(o, rec) else t[0];
      var rest := if t[0].owner == o then t[1..] else Replace(t[1..], o, rec);
      RecordsOfCons(head, rest);
      RecordsOfCons(t[0], t[1..]);
      assert [t[0]] + t[1..] == t;
      [head] + rest
  }

  /** The table keeps at most one record per owner. */
  ghost predicate OnePerOwner(t: Table)
  {
    forall o :: |RecordsOf(t, o)| <= 1
  }

  /** A record is consistent when it waits on a request exactly when it has
      been started. */
  predicate Consistent(rec: MethodRecord)
  {
    rec.status == NotStarted <==> rec.lastRequest.None?
  }

  /** Every stored record of every owner is consistent. */
  ghost predicate AllConsistent(t: Table)
  {
    forall o, rec :: rec in RecordsOf(t, o) ==> Consistent(rec)
  }

  /** The invariant every handler keeps. */
  ghost predicate Valid(t: Table)
  {
    OnePerOwner(t) && AllConsistent(t)
  }

  lemma ResetKeepsValid(t: Table, o: Owner, rec: MethodRecord)
    requires Valid(t)
    requires Consistent(rec)
    ensures Valid(Reset(t, o, rec))
  {
  }

  lemma ReplaceKeepsValid(t: Table, o: Owner, rec: MethodRecord)
    requires Valid(t)
    requires Consistent(rec)
    ensures Valid(Replace(t, o, rec))
  {
    var r := Replace(t, o, rec);
    forall o', x | x in RecordsOf(r, o') ensures Consistent(x) {
      if o' == o && RecordsOf(t, o) != [] {
        assert RecordsOf(t, o)[1..] == [];
      }
    }
  }

  /** When the owner has a record, replacing it is seen by the next lookup. */
  lemma ReplaceThenLookup(t: Table, o: Owner, rec: MethodRecord)
    requires Lookup(t, o).Some?
    ensures Lookup(Replace(t, o, rec), o) == Some(rec)
    ensures forall o' :: o' != o ==> Lookup(Replace(t, o, rec), o') == Lookup(t, o')
  {
    LookupIsFirstRecord(t, o);
    LookupIsFirstRecord(Replace(t, o, rec), o);
    forall o' | o' != o ensures Lookup(Replace(t, o, rec), o') == Lookup(t, o') {
      LookupIsFirstRecord(t, o');
      LookupIsFirstRecord(Replace(t, o, rec), o');
    }
  }
}

=== FILE: solution_archive.dfy ===
/** The solution archive: per problem id, the decision vectors and the
    objective vectors of every solution posted for it, in posting order. */
module SolutionArchive {
  import opened Common
  import opened Problems

  type Solution = seq<real>

  /** One archive entry: `{"variables": [...], "objectives": [...]}`. */
  datatype Solutions = Solutions(variables: seq<Solution>, objectives: seq<Solution>)

  /** The archives, keyed by problem id. */
  type Archives = map<int, Solutions>

  datatype Body = NoSuchProblem(problemId: int) | CreatedArchive(problemId: int) | Appended(problemId: int) | ServerError

  /** A posted `variables` or `objectives` string after `json.loads`: a list
      of vectors, or text that is not JSON (the decode raises). */
  datatype Decoded = Decoded(solutions: seq<Solution>) | NotJson

  datatype ArchiveOutcome = ArchiveOutcome(archives: Archives, reply: Reply<Body>)

  /** `Archive.post`: a problem the caller does not own is refused with no
      change; otherwise the posted solutions start a new archive (201) or
      are appended to the existing one (202). */
  function Post(problems: seq<Problem>, archives: Archives, username: string, problemId: int,
                variables: seq<Solution>, objectives: seq<Solution>): (out: ArchiveOutcome)
    ensures problemId !in OwnedIds(problems, User(username)) ==>
      out == ArchiveOutcome(archives, Reply(404, NoSuchProblem(problemId)))
    ensures out.reply.code == 201 <==> problemId in OwnedIds(problems, User(username)) && problemId !in archives
    ensures out.reply.code == 202 <==> problemId in OwnedIds(problems, User(username)) && problemId in archives
    ensures out.reply.code == 201 ==> problemId in out.archives && out.archives[problemId] == Solutions(variables, objectives)
    ensures out.reply.code == 202 ==>
      && problemId in out.archives
      && var old_ := archives[problemId];
      && var new_ := out.archives[problemId];
      && |new_.variables| == |old_.variables| + |variables|
      && |new_.objectives| == |old_.objectives| + |objectives|
      && new_.variables[..|old_.variables|] == old_.variables
      && new_.objectives[..|old_.objectives|] == old_.objectives
      && new_.variables[|old_.variables|..] == variables
      && new_.objectives[|old_.objectives|..] == objectives
    ensures out.archives.Keys == archives.Keys + (if out.reply.code == 404 then {} else {problemId})
    ensures forall id :: id in archives && id != problemId ==> out.archives[id] == archives[id]
  {
    if problemId !in OwnedIds(problems, User(username)) then
      ArchiveOutcome(archives, Reply(404, NoSuchProblem(problemId)))
    else if problemId !in archives then
      ArchiveOutcome(archives[problemId := Solutions(variables, objectives)], Reply(201, CreatedArchive(problemId)))
    else
      var old_ := archives[problemId];
      ArchiveOutcome(archives[problemId := Solutions(old_.variables + variables, old_.objectives + objectives)],
                     Reply(202, Appended(problemId)))
  }

  /** Posting in two batches archives the same as posting both at once. */
  lemma PostTwiceIsPostConcatenated(problems: seq<Problem>, archives: Archives, username: string, problemId: int,
                                    v1: seq<Solution>, o1: seq<Solution>, v2: seq<Solution>, o2: seq<Solution>)
    requires problemId in OwnedIds(problems, User(username))
    ensures Post(problems, Post(problems, archives, username, problemId, v1, o1).archives, username, problemId, v2, o2).archives
         == Post(problems, archives, username, problemId, v1 + v2, o1 + o2).archives
  {
    if problemId in archives {
      var old_ := archives[problemId];
      assert (old_.variables + v1) + v2 == old_.variables + (v1 + v2);
      assert (old_.objectives + o1) + o2 == old_.objectives + (o1 + o2);
    }
  }

  /** `Archive.post` on the raw strings: ownership is checked first, then
      both strings are decoded; an undecodable one raises outside any
      handler, which answers 500 and commits nothing. */
  function PostText(problems: seq<Problem>, archives: Archives, username: string, problemId: int,
                    variables: Decoded, objectives: Decoded): (out: ArchiveOutcome)
    ensures problemId !in OwnedIds(problems, User(username)) ==>
      out == ArchiveOutcome(archives, Reply(404, NoSuchProblem(problemId)))
    ensures problemId in OwnedIds(problems, User(username)) && (variables.NotJson? || objectives.NotJson?) ==>
      out == ArchiveOutcome(archives, Reply(500, ServerError))
    ensures out.reply.code == 201 || out.reply.code == 202 <==>
      problemId in OwnedIds(problems, User(username)) && variables.Decoded? && objectives.Decoded?
    ensures variables.Decoded? && objectives.Decoded? ==>
      out == Post(problems, archives, username, problemId, variables.solutions, objectives.solutions)
  {
    if problemId !in OwnedIds(problems, User(username)) then
      ArchiveOutcome(archives, Reply(404, NoSuchProblem(problemId)))
    else if variables.NotJson? || objectives.NotJson? then
      ArchiveOutcome(archives, Reply(500, ServerError))
    else
      Post(problems, archives, username, problemId, variables.solutions, objectives.solutions)
  }
}

=== FILE: values.dfy ===
/** The shapes of data the method-control handlers pass around: decoded JSON
    payloads, request objects of interactive methods, and the preferences
    attached to those requests. */
module Values {
  import opened Common

  /** A decoded JSON value after numeric lists have become arrays.
      `Table` stands for a pandas DataFrame: column names and rows. */
  datatype Value =
    | Null
    | Flag(b: bool)
    | Num(x: real)
    | Text(s: string)
    | Vector(xs: seq<real>)
    | Grid(rows: seq<seq<real>>)
    | Table(columns: seq<string>, rows: seq<seq<real>>)

  /** A JSON object: the client's response payload, or a request's content. */
  type Dict = map<string, Value>

  /** What is attached to a request as the user's answer before the request
      goes back to the method. */
  datatype Preference =
    | WholeResponse(payload: Dict)                        // the entire client payload
    | RawData(data: Value)                                 // preference types 1 and 2
    | BoundMatrix(rows: seq<seq<real>>)                    // preference type 4
    | Frame(columns: seq<string>, rows: seq<seq<real>>)   // preference type 3

  /** A request object of an interactive method: the content shown to the
      user and the response attached to it (initially none). */
  datatype Request = Request(content: Dict, response: Option<Preference>)

  /** The request with `response` set and nothing else changed. */
  function Answer(r: Request, p: Preference): (a: Request)
    ensures a.content == r.content
    ensures a.response == Some(p)
  {
    r.(response := Some(p))
  }
}
